=== FILE: README.md ===
# Dev-connect core, modelled in Dafny

This project models the decision logic of a small social-profile web
application: an Express/MongoDB backend for registration, login and profile
documents, plus the client's Redux-style authentication slice. Every route
handler becomes a pure transition `(store, request) -> (store', response)`.
The store is an in-memory pair of sequences (users, profiles), so "`findOne`
returns the first match" and "one profile per user" are real properties to
prove. The client reducer returns its `localStorage` write as an explicit
effect next to the new state.

Modules, one per source file or component:

- `Wrappers`: `Option`.
- `Seqs`: first-match lookup.
- `Validation`: the error list express-validator's `validationResult(req).array()` builds from a route's checks.
- `JsArray`: `indexOf` and `splice(start, 1)` with their JavaScript semantics, and remove-by-id built from them.
- `Text`: `split(",")` and `trim()`.
- `Model`: documents, store, responses, and the black-box services.
- `AuthGate`: `middleware/auth.js`.
- `UsersRoute`: `routes/api/users.js`.
- `AuthRoute`: `routes/api/auth.js`.
- `ProfileRoute`: `routes/api/profile.js`.
- `AuthReducer`: `client/src/reducers/auth.js`.
- `AuthActions`: `client/src/actions/auth.js`.
- `Api`: the routes as mounted. Private routes run the gate before their validators. This module also links the server's registration response to the client thunk.

External services are fields of the `Model.Env` datatype: function values the
routes call without looking inside. They are the e-mail validator, the gravatar URL builder,
bcrypt `genSalt`/`hash`/`compare`, and jsonwebtoken `sign`/`verify` with the
secret built in. Randomness (the salt seed) and store-assigned ids (the new
user id, the new sub-document id) are parameters. The client's request
outcomes are parameters too.

Three behaviours of the code a reader may not expect, all modelled as written:

- Removing an experience or education entry by an id no entry carries deletes the last entry: `indexOf` gives -1 and `splice(-1, 1)` removes the last element. See Findings.
- REGISTER_FAIL sets `isAuthenticated` and `loading`, and also spreads the action's payload. It leaves `token` in state while removing the stored copy (`AuthReducer.RegisterFailLeavesStaleToken`).
- The login route checks only that `password` exists. An empty password passes validation and goes to `compare`; there is no minimum length.

## Model

| member | source | states |
|---|---|---|
| `Validation.Failures` | routes/api/users.js:27-29 | the error list of a check chain has one item per failing check, is empty exactly when every check passes, and holds only the chain's own items |
| `Validation.FailuresExact` | routes/api/users.js:27-29 | with distinct items, the error list holds a check's item exactly when that check fails, once, in declaration order, and nothing else |
| `Validation.ReportDetermined` | routes/api/users.js:27-29 | conversely, any list with those properties is the error list, so they pin it down completely |
| `Text.SplitUnique` | routes/api/profile.js:57 | any comma-free pieces whose comma-join is the input are exactly `Split` of it, so `Split` is the unique in-order cut at commas |
| `Text.TrimUnique` | routes/api/profile.js:57 | `trim` removes exactly the surrounding whitespace: whitespace + trimmed core + whitespace trims to the core |
| `Text.Split` | routes/api/profile.js:57 | `split(",")` gives one piece per comma plus one, no piece contains a comma, and joining the pieces with commas gives the input back |
| `Text.Trim` | routes/api/profile.js:57 | the result of `trim()` neither starts nor ends with whitespace and is no longer than the input |
| `Text.TrimCutsWhitespace` | routes/api/profile.js:57 | `trim()` gives a contiguous slice of the input, cutting only whitespace from either end |
| `ProfileRoute.ParseSkills` | routes/api/profile.js:57 | the skill list has one entry per comma plus one, entry i is the i-th comma-separated piece trimmed, and no entry starts or ends with whitespace |
| `ProfileRoute.ParseSkillsInvertsJoin` | routes/api/profile.js:57 | parsing the comma-join of trimmed, comma-free skills gives the list back |
| `ProfileRoute.ParseSkillsTrimsPieces` | routes/api/profile.js:57 | parsing the comma-join of comma-free pieces gives one entry per piece, in order, each piece with its surrounding whitespace removed |
| `ProfileRoute.BuildFields` | routes/api/profile.js:46-65 | the field set always has `user` = caller and a `social` object; each optional field and social link is set, to the input, exactly when the input is truthy; skills are the parsed list |
| `ProfileRoute.ValidateProfile` | routes/api/profile.js:38-45 | the errors are exactly the items of the failing checks among status and skills, each once, in declaration order (so at most two); none exactly when both are non-empty |
| `ProfileRoute.Upsert` | routes/api/profile.js:38-84 | invalid input gives 400 with the errors and an unchanged store; otherwise the caller has a profile afterwards and gets it back in `{profile}`; users and other users' profiles are unchanged; an existing profile is updated in place, otherwise one new profile built from the field set is appended |
| `ProfileRoute.Create` | routes/api/profile.js:76-77 | `new Profile(profileFields)` carries every key of the field set and starts with no experience and no education entries |
| `ProfileRoute.Merge` | routes/api/profile.js:71 | `$set` gives a key present in the field set its new value and keeps a key absent from it; user, skills and social are always written; the entry lists are kept |
| `ProfileRoute.UpsertKeepsOwnersUnique` | routes/api/profile.js:67-78 | upsert keeps at most one profile per user, and afterwards the caller has exactly one |
| `ProfileRoute.UpsertUpdateSemantics` | routes/api/profile.js:60-71 | on update, a falsy optional field keeps its stored value and a truthy one replaces it; skills are replaced; `social` is replaced as a whole, so an omitted link is dropped; entries are untouched |
| `ProfileRoute.UpsertIdempotent` | routes/api/profile.js:67-78 | repeating an upsert with the same body leaves the store and the response as after the first call |
| `ProfileRoute.GetMine` | routes/api/profile.js:17-30 | 400 "There is no Profile for this user" exactly when the caller has no profile; otherwise the caller's stored profile with its owner's name and avatar |
| `ProfileRoute.GetByUser` | routes/api/profile.js:109-120 | 400 "Profile not found" exactly when no profile has that user id, malformed ids included; otherwise that user's stored profile, populated |
| `ProfileRoute.ListProfiles` | routes/api/profile.js:92-100 | every stored profile, in store order, each paired with its owner's name and avatar (or none when the user is gone) |
| `ProfileRoute.DeleteAccount` | routes/api/profile.js:129-140 | when the caller has a profile, exactly the first one they own is removed and the others keep their order; otherwise the profiles are unchanged; the same for the first user record with the caller's id; with unique owners and ids none of the caller's remain; the reply is "User deleted" |
| `ProfileRoute.AddExperience` | routes/api/profile.js:148-181 | missing title, company or from date gives 400 with the store unchanged; otherwise the new entry is at index 0, the old entries follow in order, the length grows by one, and nothing else in the store changes |
| `ProfileRoute.ValidateExperience` | routes/api/profile.js:148-157 | the errors are exactly the items of the failing checks among title, company and from, each once, in declaration order; none exactly when all three are non-empty |
| `ProfileRoute.ValidateEducation` | routes/api/profile.js:215-225 | the errors are exactly the items of the failing checks among school, degree, field of study and from, each once, in declaration order; none exactly when all four are non-empty |
| `ProfileRoute.AddEducation` | routes/api/profile.js:215-241 | the same for school, degree, field of study and from date on the education list |
| `ProfileRoute.RemoveExperience` | routes/api/profile.js:189-205 | the first entry with the id is removed and the rest keep their order; with no such entry the last entry is removed; an empty list stays empty; nothing else changes |
| `ProfileRoute.RemoveEducation` | routes/api/profile.js:249-265 | the same on the education list |
| `ProfileRoute.AddThenRemoveExperience` | routes/api/profile.js:173-197 | adding an experience entry and then removing it by its new id restores the store exactly |
| `ProfileRoute.AddThenRemoveEducation` | routes/api/profile.js:233-257 | adding an education entry and then removing it by its new id restores the store exactly |
| `JsArray.IndexOf` | routes/api/profile.js:196 | the result is -1 exactly when the id is absent; otherwise it is the first index holding it |
| `JsArray.SpliceOne` | routes/api/profile.js:197 | `splice(start, 1)` removes the element at `start`; a negative start counts from the end, and one before the start of a non-empty array is clamped to 0 and removes the first element; a start past the end, or an empty array, removes nothing |
| `JsArray.RemoveById` | routes/api/profile.js:196-197 | remove-by-id as written: the first match is removed; with no match the last entry of a non-empty list is removed |
| `JsArray.RemoveUnshifted` | routes/api/profile.js:173-197 | removing the id of an entry just put at the head takes off exactly that entry |
| `JsArray.UnknownIdDeletesLast` | routes/api/profile.js:196-197 | with an absent id the written removal shortens a non-empty list by dropping its last entry; the intended removal leaves it unchanged |
| `JsArray.UnknownIdExample` | routes/api/profile.js:196-197 | ids ["a", "b"] with "z" removed leaves ["a"] as written, ["a", "b"] as intended |
| `JsArray.RemoveByIdIntended` | routes/api/profile.js:196-197 | corrected removal: the first match is removed; an unknown id changes nothing |
| `JsArray.RemoveAgreesWhenPresent` | routes/api/profile.js:196-197 | when the id is present, the written and the intended removal agree |
| `AuthGate.Gate` | middleware/auth.js:4-16 | `next` runs at most once, and exactly when the header is non-empty and verification succeeds; a response is written exactly when `next` is not called; a missing or empty header gives 401 "Un-autorized request" without calling verify; failed verification gives 401 "Token is not valid"; on success `req.user` is the decoded claim's user |
| `AuthGate.NoTokenIgnoresVerifier` | middleware/auth.js:5-8 | without a token the gate's result does not depend on the verifier at all |
| `AuthGate.IssuedTokenOpensGate` | middleware/auth.js:9-12 | a token signed for user id opens the gate as that id, given that verify inverts sign |
| `UsersRoute.Validate` | routes/api/users.js:20-30 | the errors are exactly the items of the failing checks among name, e-mail and password, each once, in declaration order; none exactly when the name is non-empty, the e-mail passes `isEmail` and the password is at least 6 long as `isLength` counts |
| `UsersRoute.IsLengthCount` | routes/api/users.js:22-24 | `isLength`'s count is at most the number of characters, and equal to it exactly when the string holds no variation selector U+FE0E or U+FE0F |
| `UsersRoute.SelectorsDoNotCount` | routes/api/users.js:22-24 | appending variation selectors does not change `isLength`'s count |
| `UsersRoute.SelectorPaddedPasswordRejected` | routes/api/users.js:22-24 | five ordinary characters followed by a variation selector are refused as too short |
| `UsersRoute.Register` | routes/api/users.js:17-82 | success (200) exactly when the input is valid and the e-mail is not stored; every failure is 400 with the store unchanged, carrying the validator errors or "User already exisits"; success appends exactly one user with the given name and e-mail, the password hashed under a cost-10 salt, and the gravatar of the e-mail; the reply is a token signed over the new id with lifetime 360000 |
| `UsersRoute.RegisterKeepsEmailsUnique` | routes/api/users.js:34-58 | registration preserves e-mail uniqueness |
| `UsersRoute.RegisterKeepsIdsUnique` | routes/api/users.js:52-58 | with a fresh id from the store, registration preserves id uniqueness |
| `UsersRoute.SecondRegistrationRejected` | routes/api/users.js:34-39 | after a successful registration, any valid registration with the same e-mail is rejected with "User already exisits" and stores nothing |
| `UsersRoute.AvatarDependsOnEmailOnly` | routes/api/users.js:41-45 | two successful registrations with the same e-mail store the same avatar, whatever else differs |
| `AuthRoute.CurrentUser` | routes/api/auth.js:16-24 | `{user}` is the first stored user with the caller's id, password removed, or null when there is none |
| `AuthRoute.ValidateLogin` | routes/api/auth.js:35-42 | the errors are exactly the items of the failing checks among e-mail and password, each once, in declaration order (so at most two); none exactly when the e-mail passes `isEmail` and a password field exists |
| `AuthRoute.Login` | routes/api/auth.js:32-83 | the store is never modified; invalid input gives 400 with the validator errors; success (200) exactly when the first user with the e-mail has a hash the password matches, with a token signed over that user's id for 360000; every other case is 400 "Invalid credentials" |
| `AuthRoute.UnknownEmailLooksLikeWrongPassword` | routes/api/auth.js:46-59 | an unknown e-mail and a wrong password produce identical responses |
| `AuthRoute.InvalidLoginSkipsLookup` | routes/api/auth.js:39-42 | input the validators reject gets the same response whatever the store holds |
| `AuthRoute.RegisterThenLogin` | routes/api/auth.js:46-77 | right after registering, logging in with the same e-mail and password succeeds with a token that opens the gate as the new user |
| `AuthReducer.InitialState` | client/src/reducers/auth.js:8-13 | token is the stored token, isAuthenticated is null, loading is true, user is null |
| `AuthReducer.Spread` | client/src/reducers/auth.js:30-32 | `{...state, ...payload}`: each of the four keys takes the payload's value when the payload has the key, and the state's value otherwise |
| `AuthReducer.StorageString` | client/src/reducers/auth.js:29 | `setItem` stores `String(value)`: a string token as itself, `null` as "null", a missing token as "undefined" |
| `AuthReducer.Reduce` | client/src/reducers/auth.js:15-57 | after each handled action loading is false. USER_LOADED signs in with the payload as user and has no storage effect. REGISTER_SUCCESS stores `String(payload.token)`, takes token and user from the payload when present, and forces isAuthenticated true. REGISTER_FAIL removes the stored token and forces isAuthenticated false, keeping the state's token unless the payload has one. AUTH_ERROR removes the stored token, nulls token and clears isAuthenticated, keeping user. Any other action returns the identical state with no effect |
| `AuthReducer.AuthErrorIdempotent` | client/src/reducers/auth.js:45-52 | AUTH_ERROR twice leaves state and storage as AUTH_ERROR once |
| `AuthReducer.DispatchKeepsMirror` | client/src/reducers/auth.js:20-55 | every action except REGISTER_FAIL keeps the state's token equal to the stored token; REGISTER_SUCCESS does so when its payload carries a string token |
| `AuthReducer.RegisterFailLeavesStaleToken` | client/src/reducers/auth.js:37-44 | REGISTER_FAIL removes the stored token but keeps the token in state |
| `AuthReducer.RunUnhandled` | client/src/reducers/auth.js:53-55 | a log of actions the reducer does not handle leaves state and storage untouched |
| `AuthActions.LoadUser` | client/src/actions/auth.js:11-27 | the stored token becomes the default header exactly when it is present and non-empty; exactly one action is dispatched: USER_LOADED with the response data on success, AUTH_ERROR on failure |
| `AuthActions.Register` | client/src/actions/auth.js:29-55 | the body is exactly name, e-mail and password; on success exactly one REGISTER_SUCCESS with the response data; on a failure with a response, one "danger" alert per server message in order, then REGISTER_FAIL last (only REGISTER_FAIL when there is no errors array); with no response the thunk throws before dispatching |
| `AuthActions.BootThenLoadUser` | client/src/actions/auth.js:11-27 | from start-up, a successful load signs in with the stored token kept, and a failed load clears both copies of the token |
| `AuthActions.RejectedRegisterSignsOut` | client/src/actions/auth.js:45-54 | a rejected registration with a response ends with no stored token, not authenticated, not loading; the alerts change nothing |
| `Api.Handle` | routes/api/profile.js:38-41 | private routes are mounted as `[auth, [validators]]`, so a private route whose gate rejects returns the gate's 401 with the store unchanged; login and all read routes never modify the store |
| `Api.PrivateRoutesNeedToken` | middleware/auth.js:4-16 | without a valid token every private route answers 401 with a message body and changes nothing, before its own validators run |
| `Api.HandleKeepsInvariants` | routes/api/users.js:34-58 | every request preserves unique e-mails and one profile per user |
| `Api.Serve` | routes/api/profile.js:148-265 | the experience and education routes never touch the user records, keep the number of profiles, and keep every profile's owner |
| `Api.DeleteKeepsInvariants` | routes/api/profile.js:129-140 | removing the caller's profile and user record keeps e-mails unique and one profile per user |
| `Api.ClientResult` | client/src/actions/auth.js:39-46 | as axios's default `validateStatus` decides, a 2xx response resolves and any other status rejects; a resolved token reply becomes the REGISTER_SUCCESS payload's token; a rejected reply's error items become the messages the thunk alerts, in order |
| `Api.RegisterEndToEnd` | client/src/actions/auth.js:29-55 | against the registration route, a refusal becomes one alert per server message in the server's order and then REGISTER_FAIL; an acceptance leaves the issued token stored and in state, signed in, and the token opens the gate as the new user |

## Left out

- `server.js` and `config/db.js`: Express wiring, the Mongo connection and process exit are I/O with no decision logic.
- The GitHub proxy route (`routes/api/profile.js:273-296`): it is an outbound HTTP call followed by `JSON.parse` of a foreign body.
- bcrypt, jsonwebtoken, gravatar and the `isEmail` validator: these are uninterpreted functions in `Model.Env`. Signatures, expiry clocks, the secret and salt generation are not modelled. The salt's randomness is a seed parameter.
- UsersRoute.IsLengthCount: follows the `isLength` of validator.js 13, which counts code points and does not count U+FE0E and U+FE0F. A lone surrogate in the password cannot be written as a Dafny `char`, so it is left out.
- UsersRoute.Register: states that the stored password is the bcrypt hash of the input under a cost-10 salt, but not that it differs from the input, because bcrypt is uninterpreted here.
- Mongoose specifics: ObjectId casting and the `error.kind == 'ObjectId'` branch are left out; a malformed id simply matches nothing, which gives the same 400. Schema defaults, required-field and date casting, `_id`/`date` fields of documents, and `populate` beyond the owner's name and avatar are also left out.
- The 500 and catch paths: several catch blocks reference an undefined `err`, so what they do is a runtime accident, not behaviour. The `jwt.sign` callback error is left out for the same reason.
- The experience and education handlers dereference a missing profile. The model requires that a profile exists once validation has passed (`Api.Ready`); it does not model the crash.
- Concurrency: the read-then-write upsert and the two-step delete are modelled as sequential.
- Route paths: each route is a `Request` constructor, so URLs are not modelled. The education route's misspelt path `/eduation` is noted but not modelled. The order in which a route runs the gate and its validators is modelled, in `Api`.
- Request body fields that the routes read as required strings are strings, and a missing one is the empty string, which the validators and truthiness tests treat like `undefined`. The experience and education bodies also carry optional `to` and `description` fields (and experience an optional `location`) and an optional boolean `current`, which the handlers copy as given. A number, array or object sent where a string is expected is left out.
- Validation error items keep `msg` and `param`; express-validator's `value` and `location` are left out.
- Decoded tokens always carry `{user: {id}}`. Tokens signed elsewhere without that claim are left out.
- The client payload spread covers the four state keys. Other keys a payload might add to the state are left out.
- Console logging, `setAlert`'s own reducer and timeout (the alert is a `SetAlert` action the auth reducer ignores), and the internals of axios and `setAuthToken` (the header is returned as a value) are left out.

## Findings

| source | as written | input that shows it | evidently intended | confidence | as-written member | corrected member |
|---|---|---|---|---|---|---|
| routes/api/profile.js:196-197 (and 256-257) | `splice(indexOf(id), 1)` with `indexOf` returning -1 for an unknown id, and `splice(-1, 1)` removing the last element | entries with ids ["a", "b"], remove "z": the result is ["a"] | an unknown id removes nothing: the route exists to delete the entry with the given id, and the commented-out alternative at routes/api/profile.js:193-194 tests `exp.id !== req.params.exp_id` for each entry (written with `map`, evidently meant as `filter`, and marked by its author as unsure to work) | not executed; high (follows from `indexOf`/`splice` semantics) | `JsArray.UnknownIdExample` | `JsArray.RemoveByIdIntended` |

The route models (`ProfileRoute.RemoveExperience`, `ProfileRoute.RemoveEducation`)
keep the written behaviour, because they describe what the server does.
`JsArray.RemoveAgreesWhenPresent` shows that the written and the corrected
removal coincide whenever the id is present.

=== FILE: api.dfy ===
/** The routes as the server mounts them: private routes run the auth gate
    first and only then their own validators; public routes skip it. Also
    the link between the server's registration response and what the
    client's `register` thunk does with it. */
module Api {
  import opened Wrappers
  import opened Model
  import Seqs
  import AuthGate
  import UsersRoute
  import AuthRoute
  import ProfileRoute
  import AuthReducer
  import AuthActions

  datatype Request =
    | RegisterUser(registration: UsersRoute.RegisterRequest, newUserId: UserId, saltSeed: nat)
    | Login(login: AuthRoute.LoginRequest)
    | GetAuthUser(header: Option<string>)
    | GetMyProfile(header: Option<string>)
    | UpsertProfile(header: Option<string>, profile: ProfileRoute.ProfileRequest)
    | ListProfiles
    | GetProfileByUser(userId: string)
    | DeleteAccount(header: Option<string>)
    | AddExperience(header: Option<string>, experience: ProfileRoute.ExperienceRequest, newEntryId: string)
    | RemoveExperience(header: Option<string>, entryId: string)
    | AddEducation(header: Option<string>, education: ProfileRoute.EducationRequest, newEntryId: string)
    | RemoveEducation(header: Option<string>, entryId: string)

  /** Routes mounted behind the auth gate. */
  predicate Private(req: Request)
  {
    !(req.RegisterUser? || req.Login? || req.ListProfiles? || req.GetProfileByUser?)
  }

  /** The entry routes read the caller's profile unchecked once their
      validators pass; the model asks that it exists. */
  ghost predicate Ready(env: Env, store: Store, req: Request)
  {
    var id := AuthGate.Identity(env, if Private(req) then req.header else None);
    match req
    case AddExperience(_, e, _) =>
      id.Some? && ProfileRoute.ValidateExperience(e) == [] ==> HasProfile(store.profiles, id.value)
    case AddEducation(_, e, _) =>
      id.Some? && ProfileRoute.ValidateEducation(e) == [] ==> HasProfile(store.profiles, id.value)
    case RemoveExperience(_, _) => id.Some? ==> HasProfile(store.profiles, id.value)
    case RemoveEducation(_, _) => id.Some? ==> HasProfile(store.profiles, id.value)
    case _ => true
  }

  /** Serve one request. */
  function Handle(env: Env, store: Store, req: Request): (out: Outcome)
    requires Ready(env, store, req)
    ensures Private(req) && AuthGate.Identity(env, req.header).None? ==>
              out == Outcome(store, AuthGate.Gate(env, req.header).response.value)
    ensures req.Login? || req.GetAuthUser? || req.GetMyProfile? || req.ListProfiles? || req.GetProfileByUser? ==>
              out.store == store
  {
    match req
    case RegisterUser(r, newId, seed) => UsersRoute.Register(env, store, r, newId, seed)
    case Login(r) => AuthRoute.Login(env, store, r)
    case ListProfiles => Outcome(store, ProfileRoute.ListProfiles(store))
    case GetProfileByUser(userId) => Outcome(store, ProfileRoute.GetByUser(store, userId))
    case GetAuthUser(_) => Guarded(env, store, req)
    case GetMyProfile(_) => Guarded(env, store, req)
    case UpsertProfile(_, _) => Guarded(env, store, req)
    case DeleteAccount(_) => Guarded(env, store, req)
    case AddExperience(_, _, _) => Guarded(env, store, req)
    case RemoveExperience(_, _) => Guarded(env, store, req)
    case AddEducation(_, _, _) => Guarded(env, store, req)
    case RemoveEducation(_, _) => Guarded(env, store, req)
  }

  /** A private route: the gate, then the handler as the gate's identity. */
  function Guarded(env: Env, store: Store, req: Request): (out: Outcome)
    requires Private(req) && Ready(env, store, req)
    ensures AuthGate.Identity(env, req.header).None? ==>
              out == Outcome(store, AuthGate.Gate(env, req.header).response.value)
    ensures AuthGate.Identity(env, req.header).Some? ==>
              out == Serve(store, AuthGate.Identity(env, req.header).value, req)
  {
    var gate := AuthGate.Gate(env, req.header);
    if gate.nextCalls == 0 then Outcome(store, gate.response.value)
    else Serve(store, gate.user.value, req)
  }

  /** The handler of a private route, run as user `id`. */
  function Serve(store: Store, id: UserId, req: Request): (out: Outcome)
    requires Private(req)
    requires req.AddExperience? && ProfileRoute.ValidateExperience(req.experience) == [] ==> HasProfile(store.profiles, id)
    requires req.AddEducation? && ProfileRoute.ValidateEducation(req.education) == [] ==> HasProfile(store.profiles, id)
    requires req.RemoveExperience? || req.RemoveEducation? ==> HasProfile(store.profiles, id)
    ensures req.GetAuthUser? || req.GetMyProfile? ==> out.store == store
    ensures !(req.UpsertProfile? || req.DeleteAccount?) ==>
              && out.store.users == store.users
              && |out.store.profiles| == |store.profiles|
              && forall i :: 0 <= i < |store.profiles| ==> out.store.profiles[i].user == store.profiles[i].user
  {
    match req
    case GetAuthUser(_) => Outcome(store, AuthRoute.CurrentUser(store, id))
    case GetMyProfile(_) => Outcome(store, ProfileRoute.GetMine(store, id))
    case UpsertProfile(_, p) => ProfileRoute.Upsert(store, id, p)
    case DeleteAccount(_) => ProfileRoute.DeleteAccount(store, id)
    case AddExperience(_, _, _) => ServeExperience(store, id, req)
    case RemoveExperience(_, _) => ServeExperience(store, id, req)
    case AddEducation(_, _, _) => ServeEducation(store, id, req)
    case RemoveEducation(_, _) => ServeEducation(store, id, req)
  }

  /** The two routes that add or remove an experience entry. */
  function ServeExperience(store: Store, id: UserId, req: Request): (out: Outcome)
    requires req.AddExperience? || req.RemoveExperience?
    requires req.AddExperience? && ProfileRoute.ValidateExperience(req.experience) == [] ==> HasProfile(store.profiles, id)
    requires req.RemoveExperience? ==> HasProfile(store.profiles, id)
    ensures out.store.users == store.users
    ensures |out.store.profiles| == |store.profiles|
    ensures forall i :: 0 <= i < |store.profiles| ==> out.store.profiles[i].user == store.profiles[i].user
  {
    match req
    case AddExperience(_, e, entryId) => ProfileRoute.AddExperience(store, id, e, entryId)
    case RemoveExperience(_, entryId) => ProfileRoute.RemoveExperience(store, id, entryId)
  }

  /** The two routes that add or remove an education entry. */
  function ServeEducation(store: Store, id: UserId, req: Request): (out: Outcome)
    requires req.AddEducation? || req.RemoveEducation?
    requires req.AddEducation? && ProfileRoute.ValidateEducation(req.education) == [] ==> HasProfile(store.profiles, id)
    requires req.RemoveEducation? ==> HasProfile(store.profiles, id)
    ensures out.store.users == store.users
    ensures |out.store.profiles| == |store.profiles|
    ensures forall i :: 0 <= i < |store.profiles| ==> out.store.profiles[i].user == store.profiles[i].user
  {
    match req
    case AddEducation(_, e, entryId) => ProfileRoute.AddEducation(store, id, e, entryId)
    case RemoveEducation(_, entryId) => ProfileRoute.RemoveEducation(store, id, entryId)
  }

  /** A private route without a valid token answers 401 with a bare
      message, changes nothing, and never reaches its own validators. */
  lemma PrivateRoutesNeedToken(env: Env, store: Store, req: Request)
    requires Ready(env, store, req)
    requires Private(req) && AuthGate.Identity(env, req.header).None?
    ensures var out := Handle(env, store, req);
            && out.store == store
            && out.response.status == 401
            && out.response.body.Message?
  {
  }

  /** Every request keeps e-mails unique, and keeps one profile per user. */
  lemma HandleKeepsInvariants(env: Env, store: Store, req: Request)
    requires Ready(env, store, req)
    requires EmailsUnique(store.users) && OwnersUnique(store.profiles)
    ensures EmailsUnique(Handle(env, store, req).store.users)
    ensures OwnersUnique(Handle(env, store, req).store.profiles)
  {
    if req.RegisterUser? {
      UsersRoute.RegisterKeepsEmailsUnique(env, store, req.registration, req.newUserId, req.saltSeed);
    } else if Private(req) && AuthGate.Identity(env, req.header).Some? {
      var id := AuthGate.Identity(env, req.header).value;
      if req.UpsertProfile? {
        ProfileRoute.UpsertKeepsOwnersUnique(store, id, req.profile);
      } else if req.DeleteAccount? {
        DeleteKeepsInvariants(store, id);
      }
    }
  }

  /** Deleting the caller's account keeps e-mails and profile owners unique. */
  lemma DeleteKeepsInvariants(store: Store, id: UserId)
    requires EmailsUnique(store.users) && OwnersUnique(store.profiles)
    ensures EmailsUnique(ProfileRoute.DeleteAccount(store, id).store.users)
    ensures OwnersUnique(ProfileRoute.DeleteAccount(store, id).store.profiles)
  {
    DeleteKeepsOwnersUnique(store, id);
    DeleteKeepsEmailsUnique(store, id);
  }

  lemma DeleteKeepsOwnersUnique(store: Store, id: UserId)
    requires OwnersUnique(store.profiles)
    ensures OwnersUnique(ProfileRoute.DeleteAccount(store, id).store.profiles)
  {
    var out := ProfileRoute.DeleteAccount(store, id).store.profiles;
    if HasProfile(store.profiles, id) {
      var k: nat :| Seqs.FirstWith(store.profiles, ProfileOwner, id, k) && out == Seqs.RemoveAt(store.profiles, k);
      OwnersUniqueWithout(store.profiles, k);
    }
  }

  lemma DeleteKeepsEmailsUnique(store: Store, id: UserId)
    requires EmailsUnique(store.users)
    ensures EmailsUnique(ProfileRoute.DeleteAccount(store, id).store.users)
  {
    var out := ProfileRoute.DeleteAccount(store, id).store.users;
    if HasUser(store.users, id) {
      var k: nat :| Seqs.FirstWith(store.users, UserKey, id, k) && out == Seqs.RemoveAt(store.users, k);
      EmailsUniqueWithout(store.users, k);
    }
  }

  lemma OwnersUniqueWithout(ps: seq<Profile>, k: nat)
    requires k < |ps| && OwnersUnique(ps)
    ensures OwnersUnique(Seqs.RemoveAt(ps, k))
  {
    var qs := Seqs.RemoveAt(ps, k);
    forall i, j | 0 <= i < j < |qs| ensures qs[i].user != qs[j].user {
      assert qs[i] == ps[if i < k then i else i + 1];
      assert qs[j] == ps[if j < k then j else j + 1];
    }
  }

  lemma EmailsUniqueWithout(us: seq<User>, k: nat)
    requires k < |us| && EmailsUnique(us)
    ensures EmailsUnique(Seqs.RemoveAt(us, k))
  {
    var vs := Seqs.RemoveAt(us, k);
    forall i, j | 0 <= i < j < |vs| ensures vs[i].email != vs[j].email {
      assert vs[i] == us[if i < k then i else i + 1];
      assert vs[j] == us[if j < k then j else j + 1];
    }
  }

  /** axios's default `validateStatus`: a response resolves the request
      exactly when its status is 2xx. */
  predicate Resolves(status: nat)
  {
    200 <= status < 300
  }

  /** What axios hands the `register` thunk for a server response: a 2xx
      status resolves with the response data, any other status rejects with
      the response attached. */
  function ClientResult(r: Response): (c: AuthActions.RegisterResult)
    ensures c.Rejected? <==> !Resolves(r.status)
    ensures Resolves(r.status) && r.body.TokenBody? ==>
              c == AuthActions.Registered(AuthReducer.Payload(Some(Some(r.body.token)), None, None, None))
    ensures !Resolves(r.status) && r.body.Errors? ==>
              c.response == Some(AuthActions.ErrorData(Some(Messages(r.body.errors))))
  {
    if Resolves(r.status) then
      if r.body.TokenBody? then AuthActions.Registered(AuthReducer.Payload(Some(Some(r.body.token)), None, None, None))
      else AuthActions.Registered(AuthReducer.NoPayload)
    else
      AuthActions.Rejected(Some(AuthActions.ErrorData(if r.body.Errors? then Some(Messages(r.body.errors)) else None)))
  }

  function Messages(errs: seq<ErrorItem>): (msgs: seq<string>)
    ensures |msgs| == |errs|
    ensures forall i :: 0 <= i < |errs| ==> msgs[i] == errs[i].msg
  {
    seq(|errs|, i requires 0 <= i < |errs| => errs[i].msg)
  }

  /** Client and server together: `register` posts its three fields; when
      the server refuses, the client raises one alert per server message in
      the server's order and then REGISTER_FAIL; when it accepts, the client
      stores the issued token, is signed in, and the token opens the gate as
      the new user. */
  lemma RegisterEndToEnd(env: Env, store: Store, sess: AuthReducer.Session,
                         name: string, email: string, password: string, newId: UserId, seed: nat)
    requires AuthGate.TokensSound(env)
    ensures var req := UsersRoute.RegisterRequest(name, email, password);
            var server := UsersRoute.Register(env, store, req, newId, seed);
            var client := AuthActions.Register(name, email, password, ClientResult(server.response));
            var after := AuthReducer.Run(sess, client.dispatched);
            && !client.threw
            && (server.response.status != 200 ==>
                  && server.response.body.Errors?
                  && var msgs := Messages(server.response.body.errors);
                     && |client.dispatched| == |msgs| + 1
                     && (forall i :: 0 <= i < |msgs| ==> client.dispatched[i] == AuthReducer.SetAlert(msgs[i], AuthActions.Danger))
                     && client.dispatched[|msgs|] == AuthReducer.RegisterFail(AuthReducer.NoPayload)
                     && after.stored.None? && after.state.isAuthenticated == Some(false))
            && (server.response.status == 200 ==>
                  && after.stored.Some?
                  && after.stored == after.state.token
                  && after.state.isAuthenticated == Some(true)
                  && AuthGate.Identity(env, after.stored) == Some(newId))
  {
    var req := UsersRoute.RegisterRequest(name, email, password);
    var server := UsersRoute.Register(env, store, req, newId, seed);
    if server.response.status != 200 {
      var data := ClientResult(server.response).response.value;
      AuthActions.RejectedRegisterSignsOut(sess, name, email, password, data);
    } else {
      var client := AuthActions.Register(name, email, password, ClientResult(server.response));
      assert client.dispatched == [client.dispatched[0]];
      AuthGate.IssuedTokenOpensGate(env, newId);
    }
  }
}

=== FILE: auth_route.dfy ===
/** `GET /api/auth` (the signed-in user) and `POST /api/auth` (login). */
module AuthRoute {
  import opened Wrappers
  import opened Model
  import opened Validation
  import UsersRoute
  import AuthGate
  import Seqs

  const PasswordRequired := "Password is required"
  const InvalidCredentials := "Invalid credentials"

  /** The login body. `password` is `None` only when the field is missing:
      `exists()` lets an empty string through. */
  datatype LoginRequest = LoginRequest(email: string, password: Option<string>)

  /** The uniform rejection for an unknown e-mail and a wrong password alike. */
  const BadCredentials := Response(400, Errors([ErrorItem(InvalidCredentials, None)]))

  /** `GET /api/auth` after the gate: `{user}` with the password removed, or
      `{user: null}` when the id names no stored user. */
  function CurrentUser(store: Store, id: UserId): (r: Response)
    ensures r.status == 200 && r.body.UserEnvelope?
    ensures r.body.user.None? <==> forall j :: 0 <= j < |store.users| ==> store.users[j].id != id
    ensures forall j | Seqs.FirstWith(store.users, UserKey, id, j) :: r.body.user == Some(WithoutPassword(store.users[j]))
  {
    match FindUserById(store.users, id)
    case Some(k) =>
      assert Seqs.FirstWith(store.users, UserKey, id, k);
      Response(200, UserEnvelope(Some(WithoutPassword(store.users[k]))))
    case None => Response(200, UserEnvelope(None))
  }

  /** What the login validators report, in declaration order. */
  const LoginItems := [ErrorItem(UsersRoute.InvalidEmail, Some("email")), ErrorItem(PasswordRequired, Some("password"))]

  /** The two login validators: exactly the items of the failing checks,
      each once, in declaration order. */
  function ValidateLogin(env: Env, req: LoginRequest): (errs: seq<ErrorItem>)
    ensures ReportsExactly(errs, [env.isEmail(req.email), req.password.Some?], LoginItems)
    ensures errs == [] <==> env.isEmail(req.email) && req.password.Some?
    ensures ErrorItem(UsersRoute.InvalidEmail, Some("email")) in errs <==> !env.isEmail(req.email)
    ensures ErrorItem(PasswordRequired, Some("password")) in errs <==> req.password.None?
    ensures |errs| <= 2
  {
    var passed := [env.isEmail(req.email), req.password.Some?];
    var errs := Failures(passed, LoginItems);
    FailuresExact(passed, LoginItems);
    assert LoginItems[0] in errs <==> !passed[0];
    assert LoginItems[1] in errs <==> !passed[1];
    errs
  }

  /** Login succeeds exactly for valid input whose first user with that
      e-mail has a hash matching the password. */
  ghost predicate Matches(env: Env, users: seq<User>, req: LoginRequest)
  {
    && ValidateLogin(env, req) == []
    && exists k :: Seqs.FirstWith(users, UserEmail, req.email, k) && env.compare(req.password.value, users[k].password)
  }

  /** `POST /api/auth`. The store is only read. */
  function Login(env: Env, store: Store, req: LoginRequest): (out: Outcome)
    ensures out.store == store
    ensures ValidateLogin(env, req) != [] ==> out.response == Response(400, Errors(ValidateLogin(env, req)))
    ensures ValidateLogin(env, req) == [] && (forall j :: 0 <= j < |store.users| ==> store.users[j].email != req.email) ==>
              out.response == BadCredentials
    ensures out.response.status == 200 <==> Matches(env, store.users, req)
    ensures ValidateLogin(env, req) == [] && !Matches(env, store.users, req) ==> out.response == BadCredentials
    ensures forall k | Seqs.FirstWith(store.users, UserEmail, req.email, k) && Matches(env, store.users, req) ::
              out.response == Response(200, TokenBody(env.sign(Claim(store.users[k].id), TokenLifetime)))
  {
    var errs := ValidateLogin(env, req);
    if errs != [] then
      Outcome(store, Response(400, Errors(errs)))
    else
      match FindUserByEmail(store.users, req.email)
      case None => Outcome(store, BadCredentials)
      case Some(k) =>
        assert Seqs.FirstWith(store.users, UserEmail, req.email, k);
        if !env.compare(req.password.value, store.users[k].password) then
          Outcome(store, BadCredentials)
        else
          Outcome(store, Response(200, TokenBody(env.sign(Claim(store.users[k].id), TokenLifetime))))
  }

  /** An unknown e-mail and a wrong password get the same response, so a
      caller cannot tell which accounts exist. */
  lemma UnknownEmailLooksLikeWrongPassword(env: Env, s1: Store, r1: LoginRequest, s2: Store, r2: LoginRequest, k: nat)
    requires ValidateLogin(env, r1) == [] && ValidateLogin(env, r2) == []
    requires forall j :: 0 <= j < |s1.users| ==> s1.users[j].email != r1.email
    requires Seqs.FirstWith(s2.users, UserEmail, r2.email, k) && !env.compare(r2.password.value, s2.users[k].password)
    ensures Login(env, s1, r1).response == Login(env, s2, r2).response == BadCredentials
  {
    assert !Matches(env, s2.users, r2);
  }

  /** Input the validators reject never reaches the store: the response is
      the same whichever store the request meets. */
  lemma InvalidLoginSkipsLookup(env: Env, s1: Store, s2: Store, req: LoginRequest)
    requires ValidateLogin(env, req) != []
    ensures Login(env, s1, req).response == Login(env, s2, req).response
  {
  }

  /** bcrypt's promise: a password matches every hash made from it. */
  ghost predicate HashSound(env: Env)
  {
    forall p, salt {:trigger env.hash(p, salt)} :: env.compare(p, env.hash(p, salt))
  }

  /** A user who has just registered can log in with the same e-mail and
      password, and the token they get opens the gate as the new user. */
  lemma RegisterThenLogin(env: Env, store: Store, req: UsersRoute.RegisterRequest, newId: UserId, seed: nat)
    requires HashSound(env) && AuthGate.TokensSound(env)
    requires UsersRoute.Register(env, store, req, newId, seed).response.status == 200
    ensures var after := UsersRoute.Register(env, store, req, newId, seed).store;
            var out := Login(env, after, LoginRequest(req.email, Some(req.password)));
            && out.response == Response(200, TokenBody(env.sign(Claim(newId), TokenLifetime)))
            && AuthGate.Identity(env, Some(out.response.body.token)) == Some(newId)
  {
    var after := UsersRoute.Register(env, store, req, newId, seed).store;
    var login := LoginRequest(req.email, Some(req.password));
    var k := |store.users|;
    assert Seqs.FirstWith(after.users, UserEmail, req.email, k);
    assert env.compare(req.password, after.users[k].password);
    assert Matches(env, after.users, login);
    AuthGate.IssuedTokenOpensGate(env, newId);
  }
}

=== FILE: client_actions.dfy ===
/** The client's `loadUser` and `register` action creators. The request's
    outcome is a parameter; each returns what the thunk does with it. */
module AuthActions {
  import opened Wrappers
  import opened AuthReducer

  const Danger := "danger"

  /** `GET /api/auth` as axios reports it. */
  datatype LoadResult = Loaded(data: ServerData) | LoadFailed

  /** The token installed as the default `x-auth-token` header (`None` when
      `setAuthToken` is not called) and the actions dispatched. */
  datatype LoadUserRun = LoadUserRun(authHeader: Option<string>, dispatched: seq<Action>)

  /** `loadUser()`, given the value of `localStorage.token`. */
  function LoadUser(stored: Option<string>, result: LoadResult): (r: LoadUserRun)
    ensures r.authHeader.Some? <==> stored.Some? && stored.value != ""
    ensures r.authHeader.Some? ==> r.authHeader == stored
    ensures |r.dispatched| == 1
    ensures result.Loaded? ==> r.dispatched[0] == UserLoaded(result.data)
    ensures result.LoadFailed? ==> r.dispatched[0] == AuthError
  {
    var header := if stored.Some? && stored.value != "" then stored else None;
    match result
    case Loaded(data) => LoadUserRun(header, [UserLoaded(data)])
    case LoadFailed => LoadUserRun(header, [AuthError])
  }

  /** The JSON body `register` posts. */
  datatype RegisterBody = RegisterBody(name: string, email: string, password: string)

  /** `error.response.data` of a failed request: the `msg` of each entry of
      its `errors` array, `None` when it has no such array. */
  datatype ErrorData = ErrorData(errors: Option<seq<string>>)

  /** `POST /api/users` as axios reports it: `res.data` on success; on
      failure `error.response`, which is `None` when no response arrived. */
  datatype RegisterResult = Registered(data: Payload) | Rejected(response: Option<ErrorData>)

  /** The posted body, the actions dispatched, and whether the thunk threw. */
  datatype RegisterRun = RegisterRun(body: RegisterBody, dispatched: seq<Action>, threw: bool)

  /** One "danger" alert per message, in order. */
  function Alerts(msgs: seq<string>): (r: seq<Action>)
    ensures |r| == |msgs|
    ensures forall i :: 0 <= i < |msgs| ==> r[i] == SetAlert(msgs[i], Danger)
  {
    seq(|msgs|, i requires 0 <= i < |msgs| => SetAlert(msgs[i], Danger))
  }

  /** `register({name, email, password})`. Without a response,
      `error.response.data` throws inside the catch block before anything
      is dispatched. */
  function Register(name: string, email: string, password: string, result: RegisterResult): (r: RegisterRun)
    ensures r.body == RegisterBody(name, email, password)
    ensures r.threw <==> result.Rejected? && result.response.None?
    ensures result.Registered? ==> r.dispatched == [RegisterSuccess(result.data)]
    ensures result.Rejected? && result.response.Some? ==>
              var msgs := result.response.value.errors.GetOr([]);
              && |r.dispatched| == |msgs| + 1
              && (forall i :: 0 <= i < |msgs| ==> r.dispatched[i] == SetAlert(msgs[i], Danger))
              && r.dispatched[|msgs|] == RegisterFail(NoPayload)
    ensures r.threw ==> r.dispatched == []
  {
    var body := RegisterBody(name, email, password);
    match result
    case Registered(data) => RegisterRun(body, [RegisterSuccess(data)], false)
    case Rejected(None) => RegisterRun(body, [], true)
    case Rejected(Some(data)) =>
      var alerts := if data.errors.Some? then Alerts(data.errors.value) else [];
      RegisterRun(body, alerts + [RegisterFail(NoPayload)], false)
  }

  /** Start-up followed by `loadUser`: on success the user is signed in and
      the stored token untouched; on failure both copies of the token are gone. */
  lemma BootThenLoadUser(stored: Option<string>, result: LoadResult)
    ensures var after := Run(Boot(stored), LoadUser(stored, result).dispatched);
            && !after.state.loading
            && (result.Loaded? ==>
                  after == Session(AuthState(stored, Some(true), false, Some(result.data)), stored))
            && (result.LoadFailed? ==>
                  after == Session(AuthState(None, Some(false), false, None), None))
  {
    var log := LoadUser(stored, result).dispatched;
    assert log == [log[0]];
  }

  /** A rejected registration with a response ends signed out with no
      stored token, the alerts leaving the session alone. */
  lemma RejectedRegisterSignsOut(sess: Session, name: string, email: string, password: string, data: ErrorData)
    ensures var after := Run(sess, Register(name, email, password, Rejected(Some(data))).dispatched);
            && after.stored.None?
            && after.state.isAuthenticated == Some(false)
            && !after.state.loading
            && after.state.token == sess.state.token
  {
    var log := Register(name, email, password, Rejected(Some(data))).dispatched;
    var n := |log| - 1;
    assert log == log[..n] + [log[n]];
    RunAppend(sess, log[..n], [log[n]]);
    RunUnhandled(sess, log[..n]);
  }
}

=== FILE: client_reducer.dfy ===
/** The client's `auth` reducer. Its `localStorage` writes are returned as an
    explicit effect next to the new state instead of being performed. */
module AuthReducer {
  import opened Wrappers

  /** A response body the client stores without looking inside. */
  datatype ServerData = ServerData(json: string)

  /** The `auth` slice. `isAuthenticated` is `null` (`None`) until the first
      load settles. */
  datatype AuthState = AuthState(token: Option<string>, isAuthenticated: Option<bool>, loading: bool, user: Option<ServerData>)

  /** An action payload as `...payload` sees it: each key absent (`None`) or
      present, and a present `token`, `isAuthenticated` or `user` may be `null`. */
  datatype Payload = Payload(token: Option<Option<string>>, isAuthenticated: Option<Option<bool>>,
                             loading: Option<bool>, user: Option<Option<ServerData>>)

  /** `...undefined` spreads nothing. */
  const NoPayload := Payload(None, None, None, None)

  /** The actions that reach the reducer: the four it handles, the alert
      action, and any other type. */
  datatype Action =
    | UserLoaded(data: ServerData)
    | RegisterSuccess(payload: Payload)
    | RegisterFail(payload: Payload)
    | AuthError
    | SetAlert(msg: string, alertType: string)
    | Other(actionType: string)

  predicate Handled(a: Action)
  {
    a.UserLoaded? || a.RegisterSuccess? || a.RegisterFail? || a.AuthError?
  }

  /** What the reducer asks of `localStorage`'s `token` key. */
  datatype Effect = NoEffect | SetToken(value: string) | RemoveToken

  datatype Step = Step(state: AuthState, effect: Effect)

  /** The stored token after the effect runs. */
  function ApplyEffect(stored: Option<string>, e: Effect): (r: Option<string>)
    ensures e.NoEffect? ==> r == stored
    ensures e.SetToken? ==> r == Some(e.value)
    ensures e.RemoveToken? ==> r.None?
  {
    match e
    case NoEffect => stored
    case SetToken(v) => Some(v)
    case RemoveToken => None
  }

  /** `setItem` stores `String(value)`: a missing key is "undefined", `null`
      is "null". */
  function StorageString(v: Option<Option<string>>): (stored: string)
    ensures v.Some? && v.value.Some? ==> stored == v.value.value
    ensures v == Some(None) ==> stored == "null"
    ensures v.None? ==> stored == "undefined"
  {
    match v
    case None => "undefined"
    case Some(None) => "null"
    case Some(Some(t)) => t
  }

  /** `{...state, ...payload}` */
  function Spread(s: AuthState, p: Payload): (r: AuthState)
    ensures r.token == p.token.GetOr(s.token) && r.user == p.user.GetOr(s.user)
    ensures r.isAuthenticated == p.isAuthenticated.GetOr(s.isAuthenticated)
    ensures r.loading == p.loading.GetOr(s.loading)
  {
    AuthState(p.token.GetOr(s.token), p.isAuthenticated.GetOr(s.isAuthenticated),
              p.loading.GetOr(s.loading), p.user.GetOr(s.user))
  }

  /** `initialState`, given what `localStorage.getItem("token")` returns. */
  function InitialState(stored: Option<string>): (s: AuthState)
    ensures s.token == stored && s.isAuthenticated.None? && s.loading && s.user.None?
  {
    AuthState(stored, None, true, None)
  }

  /** The reducer. */
  function Reduce(s: AuthState, a: Action): (r: Step)
    ensures Handled(a) ==> !r.state.loading
    ensures !Handled(a) ==> r == Step(s, NoEffect)
    ensures a.UserLoaded? ==>
              && r.effect == NoEffect
              && r.state == s.(isAuthenticated := Some(true), loading := false, user := Some(a.data))
    ensures a.RegisterSuccess? ==>
              && r.effect == SetToken(StorageString(a.payload.token))
              && r.state.isAuthenticated == Some(true)
              && r.state.token == a.payload.token.GetOr(s.token)
              && r.state.user == a.payload.user.GetOr(s.user)
    ensures a.RegisterFail? ==>
              && r.effect == RemoveToken
              && r.state.isAuthenticated == Some(false)
              && r.state.token == a.payload.token.GetOr(s.token)
              && r.state.user == a.payload.user.GetOr(s.user)
    ensures a.AuthError? ==>
              && r.effect == RemoveToken
              && r.state == s.(token := None, isAuthenticated := Some(false), loading := false)
  {
    match a
    case UserLoaded(data) =>
      Step(s.(isAuthenticated := Some(true), loading := false, user := Some(data)), NoEffect)
    case RegisterSuccess(p) =>
      Step(Spread(s, p).(isAuthenticated := Some(true), loading := false), SetToken(StorageString(p.token)))
    case RegisterFail(p) =>
      Step(Spread(s, p).(isAuthenticated := Some(false), loading := false), RemoveToken)
    case AuthError =>
      Step(s.(token := None, isAuthenticated := Some(false), loading := false), RemoveToken)
    case _ => Step(s, NoEffect)
  }

  /** The client's state together with the stored token. */
  datatype Session = Session(state: AuthState, stored: Option<string>)

  /** The session at start-up. */
  function Boot(stored: Option<string>): Session
  {
    Session(InitialState(stored), stored)
  }

  /** One dispatch: reduce, then perform the storage effect. */
  function Dispatch(sess: Session, a: Action): Session
  {
    var step := Reduce(sess.state, a);
    Session(step.state, ApplyEffect(sess.stored, step.effect))
  }

  /** Dispatching a log of actions in order. */
  function Run(sess: Session, log: seq<Action>): Session
    decreases |log|
  {
    if |log| == 0 then sess else Run(Dispatch(sess, log[0]), log[1..])
  }

  /** Running a log in two parts is running it whole. */
  lemma {:induction false} RunAppend(sess: Session, a: seq<Action>, b: seq<Action>)
    ensures Run(sess, a + b) == Run(Run(sess, a), b)
    decreases |a|
  {
    if |a| == 0 {
      assert a + b == b;
    } else {
      assert (a + b)[1..] == a[1..] + b;
      RunAppend(Dispatch(sess, a[0]), a[1..], b);
    }
  }

  /** Actions the reducer does not handle leave the session alone. */
  lemma {:induction false} RunUnhandled(sess: Session, log: seq<Action>)
    requires forall i :: 0 <= i < |log| ==> !Handled(log[i])
    ensures Run(sess, log) == sess
    decreases |log|
  {
    if |log| > 0 {
      assert !Handled(log[0]);
      RunUnhandled(Dispatch(sess, log[0]), log[1..]);
    }
  }

  /** A second AUTH_ERROR changes nothing: state and storage are as after the first. */
  lemma AuthErrorIdempotent(sess: Session)
    ensures Dispatch(Dispatch(sess, AuthError), AuthError) == Dispatch(sess, AuthError)
  {
  }

  /** The state's token mirrors the stored one, as it does at start-up. */
  predicate Mirrors(sess: Session)
  {
    sess.state.token == sess.stored
  }

  /** Every handled action except REGISTER_FAIL keeps the state's token in
      step with storage, REGISTER_SUCCESS provided its payload carries a
      string token. */
  lemma DispatchKeepsMirror(sess: Session, a: Action)
    requires Mirrors(sess)
    requires a.RegisterSuccess? ==> a.payload.token.Some? && a.payload.token.value.Some?
    requires !a.RegisterFail?
    ensures Mirrors(Dispatch(sess, a))
  {
  }

  /** REGISTER_FAIL clears storage but not the state: a session holding a
      token keeps it in state after the stored copy is gone. */
  lemma RegisterFailLeavesStaleToken(sess: Session)
    requires sess.state.token.Some?
    ensures var after := Dispatch(sess, RegisterFail(NoPayload));
            after.stored.None? && after.state.token == sess.state.token && !Mirrors(after)
  {
  }
}

=== FILE: js_array.dfy ===
/** The two `Array.prototype` methods the profile routes use to delete a
    sub-document: `indexOf` and `splice(start, 1)`, with their JavaScript
    semantics for a missing element and a negative start. */
module JsArray {
  import opened Wrappers
  import Seqs

  /** `indexOf`: the first index holding `x`, or -1 when there is none. */
  function IndexOf<T(==)>(s: seq<T>, x: T): (r: int)
    ensures -1 <= r < |s|
    ensures r >= 0 ==> s[r] == x && forall j :: 0 <= j < r ==> s[j] != x
    ensures r == -1 <==> x !in s
  {
    match Seqs.Find(s, y => y == x)
    case Some(k) => k
    case None => -1
  }

  /** The array `splice(start, 1)` leaves behind. A negative `start` counts
      back from the end and is clamped to 0; a `start` at or past the end
      deletes nothing. */
  function SpliceOne<T>(s: seq<T>, start: int): (r: seq<T>)
    ensures 0 <= start < |s| ==> r == s[..start] + s[start + 1..]
    ensures -|s| <= start < 0 ==> r == s[..|s| + start] + s[|s| + start + 1..]
    ensures start < -|s| && |s| > 0 ==> r == s[1..]
    ensures start >= |s| || |s| == 0 ==> r == s
    ensures |s| > 0 && start < |s| ==> |r| == |s| - 1
  {
    var k := if start < 0 then (if |s| + start < 0 then 0 else |s| + start)
             else if start > |s| then |s| else start;
    if k == |s| then s else s[..k] + s[k + 1..]
  }

  /** `s.map(item => item.id)` */
  function Ids<T>(s: seq<T>, idOf: T -> string): (r: seq<string>)
    ensures |r| == |s|
    ensures forall i :: 0 <= i < |s| ==> r[i] == idOf(s[i])
  {
    seq(|s|, i requires 0 <= i < |s| => idOf(s[i]))
  }

  /** No entry of `s` has id `id`. */
  ghost predicate Absent<T>(s: seq<T>, idOf: T -> string, id: string)
  {
    forall j :: 0 <= j < |s| ==> idOf(s[j]) != id
  }

  /** Remove-by-id as the routes write it:
      `s.splice(s.map(item => item.id).indexOf(id), 1)`. */
  function RemoveById<T>(s: seq<T>, idOf: T -> string, id: string): (r: seq<T>)
    ensures forall k | Seqs.FirstWith(s, idOf, id, k) :: r == s[..k] + s[k + 1..]
    ensures Absent(s, idOf, id) && |s| > 0 ==> r == s[..|s| - 1]
    ensures |s| == 0 ==> r == []
  {
    var index := IndexOf(Ids(s, idOf), id);
    IndexOfIds(s, idOf, id);
    SpliceOne(s, index)
  }

  /** `indexOf` over the ids finds the first entry with the id, or -1 when
      no entry carries it. */
  lemma IndexOfIds<T>(s: seq<T>, idOf: T -> string, id: string)
    ensures var i := IndexOf(Ids(s, idOf), id);
            && (i >= 0 ==> forall k | Seqs.FirstWith(s, idOf, id, k) :: k == i)
            && (i >= 0 ==> i < |s|)
            && (i == -1 <==> Absent(s, idOf, id))
  {
  }

  /** Remove-by-id as evidently intended: an unknown id leaves `s` as it is. */
  function RemoveByIdIntended<T>(s: seq<T>, idOf: T -> string, id: string): (r: seq<T>)
    ensures forall k | Seqs.FirstWith(s, idOf, id, k) :: r == s[..k] + s[k + 1..]
    ensures Absent(s, idOf, id) ==> r == s
  {
    match Seqs.Find(s, (x: T) => idOf(x) == id)
    case Some(k) => s[..k] + s[k + 1..]
    case None => s
  }

  /** Removing the id of an entry just put at the head takes exactly that
      entry off again, whatever ids the older entries carry. */
  lemma RemoveUnshifted<T>(s: seq<T>, idOf: T -> string, x: T)
    ensures RemoveById([x] + s, idOf, idOf(x)) == s
  {
    assert Seqs.FirstWith([x] + s, idOf, idOf(x), 0);
    assert ([x] + s)[1..] == s;
  }

  /** When some entry carries the id, the routes' removal does what was
      intended. */
  lemma RemoveAgreesWhenPresent<T>(s: seq<T>, idOf: T -> string, id: string)
    requires !Absent(s, idOf, id)
    ensures RemoveById(s, idOf, id) == RemoveByIdIntended(s, idOf, id)
  {
    var k := Seqs.Find(s, (x: T) => idOf(x) == id).value;
    assert Seqs.FirstWith(s, idOf, id, k);
  }

  /** When no entry carries the id, the routes' removal still deletes one
      entry (the last), where the intended removal deletes none. */
  lemma UnknownIdDeletesLast<T>(s: seq<T>, idOf: T -> string, id: string)
    requires Absent(s, idOf, id) && |s| > 0
    ensures |RemoveById(s, idOf, id)| == |s| - 1
    ensures RemoveById(s, idOf, id) == s[..|s| - 1]
    ensures RemoveByIdIntended(s, idOf, id) == s
  {
  }

  /** The input that shows it: ids ["a", "b"], removing "z" drops "b". */
  lemma UnknownIdExample()
    ensures RemoveById(["a", "b"], (x: string) => x, "z") == ["a"]
    ensures RemoveByIdIntended(["a", "b"], (x: string) => x, "z") == ["a", "b"]
  {
    var s := ["a", "b"];
    assert Absent(s, (x: string) => x, "z");
    assert s[..1] == ["a"];
  }
}

=== FILE: middleware.dfy ===
/** The `x-auth-token` gate that every private route runs first. */
module AuthGate {
  import opened Wrappers
  import opened Model

  const NoTokenMsg := "Un-autorized request"
  const BadTokenMsg := "Token is not valid"

  /** What the middleware did: the response it wrote, if any; how often it
      called `verify` and `next`; the `req.user.id` it attached. */
  datatype GateResult = GateResult(response: Option<Response>, verifyCalls: nat, nextCalls: nat, user: Option<UserId>)

  /** The header value is truthy: present and not the empty string. */
  predicate HasToken(header: Option<string>)
  {
    header.Some? && header.value != ""
  }

  /** The gate: no token, or one `verify` rejects, ends the request with 401;
      otherwise the claim's user is attached and `next` runs. */
  function Gate(env: Env, header: Option<string>): (g: GateResult)
    ensures g.nextCalls <= 1 && g.verifyCalls <= 1
    ensures g.nextCalls == 1 <==> HasToken(header) && env.verify(header.value).Some?
    ensures g.response.None? <==> g.nextCalls == 1
    ensures g.response.Some? ==> g.response.value.status == 401 && g.user.None?
    ensures !HasToken(header) ==> g.verifyCalls == 0 && g.response == Some(Response(401, Message(NoTokenMsg)))
    ensures HasToken(header) && env.verify(header.value).None? ==>
              g.response == Some(Response(401, Message(BadTokenMsg)))
    ensures g.nextCalls == 1 ==> g.user == Some(env.verify(header.value).value.userId)
  {
    if !HasToken(header) then
      GateResult(Some(Response(401, Message(NoTokenMsg))), 0, 0, None)
    else
      match env.verify(header.value)
      case None => GateResult(Some(Response(401, Message(BadTokenMsg))), 1, 0, None)
      case Some(decoded) => GateResult(None, 1, 1, Some(decoded.userId))
  }

  /** The identity a private route runs as, when the gate lets it through. */
  function Identity(env: Env, header: Option<string>): (id: Option<UserId>)
    ensures id.Some? <==> Gate(env, header).nextCalls == 1
  {
    Gate(env, header).user
  }

  /** Without a token the verifier is never consulted: the gate's result is
      the same whatever `verify` would have said. */
  lemma NoTokenIgnoresVerifier(env1: Env, env2: Env, header: Option<string>)
    requires !HasToken(header)
    ensures Gate(env1, header) == Gate(env2, header)
  {
  }

  /** jsonwebtoken's promise: a token it signed is non-empty and verifies to
      the claim it was signed with. */
  ghost predicate TokensSound(env: Env)
  {
    forall c, t {:trigger env.sign(c, t)} :: env.sign(c, t) != "" && env.verify(env.sign(c, t)) == Some(c)
  }

  /** A token issued for user `id` opens the gate as `id`. */
  lemma IssuedTokenOpensGate(env: Env, id: UserId)
    requires TokensSound(env)
    ensures Identity(env, Some(env.sign(Claim(id), TokenLifetime))) == Some(id)
  {
    var t := env.sign(Claim(id), TokenLifetime);
    assert t != "" && env.verify(t) == Some(Claim(id));
  }
}

=== FILE: model.dfy ===
/** The documents, the store that holds them, the HTTP responses the routes
    send, and the external services the routes call without looking inside. */
module Model {
  import opened Wrappers
  import Seqs

  type UserId = string

  /** A stored user; `password` holds what bcrypt `hash` returned for the input. */
  datatype User = User(id: UserId, name: string, email: string, password: string, avatar: string)

  /** A user as `select("-password")` returns it. */
  datatype PublicUser = PublicUser(id: UserId, name: string, email: string, avatar: string)

  /** The owner as `populate('user', ['name', 'avatar'])` attaches it. */
  datatype Owner = Owner(id: UserId, name: string, avatar: string)

  datatype Social = Social(
    youtube: Option<string>, twitter: Option<string>, facebook: Option<string>,
    linkedin: Option<string>, instagram: Option<string>)

  const NoSocial := Social(None, None, None, None, None)

  /** An experience sub-document; `None` is a request field that was left out. */
  datatype Experience = Experience(
    id: string, title: string, company: string, location: Option<string>,
    from: string, to: Option<string>, current: Option<bool>, description: Option<string>)

  /** An education sub-document. */
  datatype Education = Education(
    id: string, school: string, degree: string, fieldofstudy: string,
    from: string, to: Option<string>, current: Option<bool>, description: Option<string>)

  /** A profile document; absent optional fields are `None`. */
  datatype Profile = Profile(
    user: UserId, company: Option<string>, website: Option<string>, location: Option<string>,
    status: Option<string>, skills: seq<string>, bio: Option<string>,
    githubusername: Option<string>, social: Social,
    experience: seq<Experience>, education: seq<Education>)

  /** The two collections of the document store. */
  datatype Store = Store(users: seq<User>, profiles: seq<Profile>)

  /** The token payload `{user: {id}}`. */
  datatype Claim = Claim(userId: UserId)

  /** Lifetime in seconds of every issued token (100 hours). */
  const TokenLifetime: nat := 360000

  /** Cost factor passed to `bcrypt.genSalt`. */
  const SaltRounds: nat := 10

  /** The options passed to `gravatar.url`: size 200, rating pg, default image mm. */
  datatype AvatarOptions = AvatarOptions(size: string, rating: string, default: string)
  const AvatarDefaults := AvatarOptions("200", "pg", "mm")

  /** The services the routes call as black boxes: the e-mail validator, the
      gravatar URL builder, bcrypt (`genSalt` takes the random seed it would
      draw as an argument), and jsonwebtoken with the server secret built in
      (`verify` is `None` where the library throws). */
  datatype Env = Env(
    isEmail: string -> bool,
    avatarUrl: (string, AvatarOptions) -> string,
    genSalt: (nat, nat) -> string,
    hash: (string, string) -> string,
    compare: (string, string) -> bool,
    sign: (Claim, nat) -> string,
    verify: string -> Option<Claim>)

  /** One entry of an `errors` array: `param` is the request field a
      validator names, `None` for the messages the handlers write by hand. */
  datatype ErrorItem = ErrorItem(msg: string, param: Option<string>)

  /** A profile as sent: the bare document, or with its owner populated
      (`None` when the owning user no longer exists). */
  datatype ProfileView = Plain(profile: Profile) | Populated(profile: Profile, owner: Option<Owner>)

  /** JSON bodies: `{errors}`, `{msg}`, `{token}`, a bare profile,
      `{profile}`, `{profiles}` and `{user}`. */
  datatype Body =
    | Errors(errors: seq<ErrorItem>)
    | Message(msg: string)
    | TokenBody(token: string)
    | ProfileDoc(view: ProfileView)
    | ProfileEnvelope(view: ProfileView)
    | ProfilesEnvelope(views: seq<ProfileView>)
    | UserEnvelope(user: Option<PublicUser>)

  datatype Response = Response(status: nat, body: Body)

  /** A route's effect: the store after the request and the response sent. */
  datatype Outcome = Outcome(store: Store, response: Response)

  /** Index of the first user with this e-mail (`User.findOne({email})`). */
  function FindUserByEmail(users: seq<User>, email: string): (r: Option<nat>)
    ensures r.Some? ==> r.value < |users| && users[r.value].email == email
    ensures r.None? <==> forall j :: 0 <= j < |users| ==> users[j].email != email
  {
    Seqs.Find(users, (u: User) => u.email == email)
  }

  /** Index of the first user with this id (`User.findById`). */
  function FindUserById(users: seq<User>, id: UserId): (r: Option<nat>)
    ensures r.Some? ==> r.value < |users| && users[r.value].id == id
    ensures r.Some? ==> forall j :: 0 <= j < r.value ==> users[j].id != id
    ensures r.None? <==> forall j :: 0 <= j < |users| ==> users[j].id != id
  {
    Seqs.Find(users, (u: User) => u.id == id)
  }

  /** Index of the first profile owned by `id` (`Profile.findOne({user})`). */
  function FindProfile(profiles: seq<Profile>, id: UserId): (r: Option<nat>)
    ensures r.Some? ==> r.value < |profiles| && profiles[r.value].user == id
    ensures r.Some? ==> forall j :: 0 <= j < r.value ==> profiles[j].user != id
    ensures r.None? <==> forall j :: 0 <= j < |profiles| ==> profiles[j].user != id
  {
    Seqs.Find(profiles, (p: Profile) => p.user == id)
  }

  ghost predicate HasProfile(profiles: seq<Profile>, id: UserId)
  {
    exists j :: 0 <= j < |profiles| && profiles[j].user == id
  }

  /** The keys the stores are queried by. */
  function ProfileOwner(p: Profile): UserId { p.user }
  function UserKey(u: User): UserId { u.id }
  function UserEmail(u: User): string { u.email }

  ghost predicate HasUser(users: seq<User>, id: UserId)
  {
    exists j :: 0 <= j < |users| && users[j].id == id
  }

  /** No two users share an e-mail address. */
  ghost predicate EmailsUnique(users: seq<User>)
  {
    forall i, j :: 0 <= i < j < |users| ==> users[i].email != users[j].email
  }

  /** No two users share an id. */
  ghost predicate IdsUnique(users: seq<User>)
  {
    forall i, j :: 0 <= i < j < |users| ==> users[i].id != users[j].id
  }

  /** At most one profile per user. */
  ghost predicate OwnersUnique(profiles: seq<Profile>)
  {
    forall i, j :: 0 <= i < j < |profiles| ==> profiles[i].user != profiles[j].user
  }

  /** The user record without its password hash. */
  function WithoutPassword(u: User): (p: PublicUser)
    ensures p.id == u.id && p.name == u.name && p.email == u.email && p.avatar == u.avatar
  {
    PublicUser(u.id, u.name, u.email, u.avatar)
  }

  /** The owner's id, name and avatar, or `None` when no such user exists. */
  function OwnerOf(users: seq<User>, id: UserId): (o: Option<Owner>)
    ensures o.Some? ==> exists j :: 0 <= j < |users| && users[j].id == id && o.value == Owner(id, users[j].name, users[j].avatar)
    ensures o.None? <==> forall j :: 0 <= j < |users| ==> users[j].id != id
  {
    match FindUserById(users, id)
    case Some(k) => Some(Owner(id, users[k].name, users[k].avatar))
    case None => None
  }
}

=== FILE: profile.dfy ===
/** `/api/profile`: upsert, the three reads, account deletion, and adding and
    removing experience and education entries. Private routes receive the id
    the auth gate attached; see `Api` for the composition. */
module ProfileRoute {
  import opened Wrappers
  import opened Model
  import Seqs
  import Text
  import JsArray
  import opened Validation

  const StatusRequired := "Status is required"
  const SkillsRequired := "Skills are required"
  const NoProfileForUser := "There is no Profile for this user"
  const ProfileNotFound := "Profile not found"
  const UserDeleted := "User deleted"
  const TitleRequired := "Title is required"
  const CompanyRequired := "Company is required"
  const FromRequired := "From Date is required"
  const SchoolRequired := "school is required"
  const DegreeRequired := "degree is required"
  const FieldRequired := "fieldofstudy is required"

  /** The upsert body; a missing field reads as the empty string, which is
      falsy exactly like `undefined`. */
  datatype ProfileRequest = ProfileRequest(
    company: string, website: string, location: string, status: string, skills: string,
    bio: string, githubusername: string,
    youtube: string, twitter: string, linkedin: string, facebook: string, instagram: string)

  /** The sparse field set `profileFields`: `None` for a key never assigned. */
  datatype ProfileFields = ProfileFields(
    user: UserId, company: Option<string>, website: Option<string>, location: Option<string>,
    status: Option<string>, bio: Option<string>, githubusername: Option<string>,
    skills: seq<string>, social: Social)

  /** The key is set, to `x`, exactly when `x` is truthy. */
  ghost predicate SetIfTruthy(o: Option<string>, x: string)
  {
    (o.Some? <==> x != "") && (o.Some? ==> o.value == x)
  }

  /** `if (x) obj.key = x`. */
  function IfTruthy(x: string): (o: Option<string>)
    ensures SetIfTruthy(o, x)
  {
    if x != "" then Some(x) else None
  }

  /** `skills.split(",").map(skill => skill.trim())`: one entry per
      comma-separated piece, in input order, each with its surrounding
      whitespace removed. */
  function ParseSkills(skills: string): (r: seq<string>)
    ensures |r| == Text.Count(skills, ',') + 1 == |Text.Split(skills, ',')|
    ensures forall i :: 0 <= i < |r| ==> Text.IsTrimmed(r[i])
    ensures forall i :: 0 <= i < |r| ==> r[i] == Text.Trim(Text.Split(skills, ',')[i])
  {
    var pieces := Text.Split(skills, ',');
    seq(|pieces|, i requires 0 <= i < |pieces| => Text.Trim(pieces[i]))
  }

  /** Parsing the comma-join of comma-free pieces keeps their number and
      order and trims each one: "HTML, CSS , JS" gives HTML, CSS and JS. */
  lemma ParseSkillsTrimsPieces(pieces: seq<string>)
    requires |pieces| > 0
    requires forall i :: 0 <= i < |pieces| ==> ',' !in pieces[i]
    ensures |ParseSkills(Text.Join(pieces, ','))| == |pieces|
    ensures forall i :: 0 <= i < |pieces| ==>
              ParseSkills(Text.Join(pieces, ','))[i] == Text.Trim(pieces[i])
  {
    Text.SplitUnique(Text.Join(pieces, ','), ',', pieces);
  }

  /** Joining a list of trimmed, comma-free skills with commas and parsing
      the result gives the list back. */
  lemma ParseSkillsInvertsJoin(skills: seq<string>)
    requires |skills| > 0
    requires forall i :: 0 <= i < |skills| ==> ',' !in skills[i] && Text.IsTrimmed(skills[i])
    ensures ParseSkills(Text.Join(skills, ',')) == skills
  {
    ParseSkillsTrimsPieces(skills);
    var r := ParseSkills(Text.Join(skills, ','));
    forall i | 0 <= i < |skills| ensures r[i] == skills[i] {
      Text.TrimFixes(skills[i]);
    }
  }

  /** The field set an upsert writes. */
  function BuildFields(id: UserId, req: ProfileRequest): (f: ProfileFields)
    ensures f.user == id
    ensures SetIfTruthy(f.company, req.company) && SetIfTruthy(f.website, req.website)
    ensures SetIfTruthy(f.location, req.location) && SetIfTruthy(f.status, req.status)
    ensures SetIfTruthy(f.bio, req.bio) && SetIfTruthy(f.githubusername, req.githubusername)
    ensures f.skills == ParseSkills(req.skills)
    ensures SetIfTruthy(f.social.youtube, req.youtube) && SetIfTruthy(f.social.twitter, req.twitter)
    ensures SetIfTruthy(f.social.facebook, req.facebook) && SetIfTruthy(f.social.linkedin, req.linkedin)
    ensures SetIfTruthy(f.social.instagram, req.instagram)
  {
    ProfileFields(
      id, IfTruthy(req.company), IfTruthy(req.website), IfTruthy(req.location),
      IfTruthy(req.status), IfTruthy(req.bio), IfTruthy(req.githubusername),
      ParseSkills(req.skills),
      Social(IfTruthy(req.youtube), IfTruthy(req.twitter), IfTruthy(req.facebook),
             IfTruthy(req.linkedin), IfTruthy(req.instagram)))
  }

  /** `new Profile(profileFields)`: unset keys absent, no entries yet. */
  function Create(f: ProfileFields): (p: Profile)
    ensures p.user == f.user && p.company == f.company && p.website == f.website
    ensures p.location == f.location && p.status == f.status && p.bio == f.bio
    ensures p.githubusername == f.githubusername && p.skills == f.skills && p.social == f.social
    ensures p.experience == [] && p.education == []
  {
    Profile(f.user, f.company, f.website, f.location, f.status, f.skills, f.bio,
            f.githubusername, f.social, [], [])
  }

  /** `$set: profileFields`: a key in the field set replaces the stored
      value, a key not in it keeps it; `social` is one key, so it is
      replaced as a whole. */
  function Merge(p: Profile, f: ProfileFields): (r: Profile)
    ensures r.user == f.user && r.skills == f.skills && r.social == f.social
    ensures SetOrKept(r.company, f.company, p.company) && SetOrKept(r.website, f.website, p.website)
    ensures SetOrKept(r.location, f.location, p.location) && SetOrKept(r.status, f.status, p.status)
    ensures SetOrKept(r.bio, f.bio, p.bio) && SetOrKept(r.githubusername, f.githubusername, p.githubusername)
    ensures r.experience == p.experience && r.education == p.education
  {
    Profile(f.user, Override(f.company, p.company), Override(f.website, p.website),
            Override(f.location, p.location), Override(f.status, p.status), f.skills,
            Override(f.bio, p.bio), Override(f.githubusername, p.githubusername),
            f.social, p.experience, p.education)
  }

  /** After `$set`, a key present in the update holds its value and a key
      absent from it keeps the stored one. */
  ghost predicate SetOrKept(after: Option<string>, update: Option<string>, prior: Option<string>)
  {
    (update.Some? ==> after == update) && (update.None? ==> after == prior)
  }

  function Override(update: Option<string>, prior: Option<string>): Option<string>
  {
    if update.Some? then update else prior
  }

  /** What the upsert validators report, in declaration order. */
  const ProfileItems := [ErrorItem(StatusRequired, Some("status")), ErrorItem(SkillsRequired, Some("skills"))]

  /** The two upsert validators: exactly the items of the failing checks,
      each once, in declaration order. */
  function ValidateProfile(req: ProfileRequest): (errs: seq<ErrorItem>)
    ensures ReportsExactly(errs, [req.status != "", req.skills != ""], ProfileItems)
    ensures errs == [] <==> req.status != "" && req.skills != ""
    ensures ErrorItem(StatusRequired, Some("status")) in errs <==> req.status == ""
    ensures ErrorItem(SkillsRequired, Some("skills")) in errs <==> req.skills == ""
    ensures |errs| <= 2
  {
    var passed := [req.status != "", req.skills != ""];
    var errs := Failures(passed, ProfileItems);
    FailuresExact(passed, ProfileItems);
    assert ProfileItems[0] in errs <==> !passed[0];
    assert ProfileItems[1] in errs <==> !passed[1];
    errs
  }

  /** `POST /api/profile` for the signed-in user `id`: update the user's
      profile if there is one, else create it. */
  function Upsert(store: Store, id: UserId, req: ProfileRequest): (out: Outcome)
    ensures out.store.users == store.users
    ensures ValidateProfile(req) != [] ==> out == Outcome(store, Response(400, Errors(ValidateProfile(req))))
    ensures ValidateProfile(req) == [] ==>
              && HasProfile(out.store.profiles, id)
              && out.response.status == 200
              && exists k :: 0 <= k < |out.store.profiles| && out.store.profiles[k].user == id
                             && out.response.body == ProfileEnvelope(Plain(out.store.profiles[k]))
    ensures forall i :: 0 <= i < |store.profiles| && store.profiles[i].user != id ==>
              i < |out.store.profiles| && out.store.profiles[i] == store.profiles[i]
    ensures HasProfile(store.profiles, id) || ValidateProfile(req) != [] ==>
              |out.store.profiles| == |store.profiles|
    ensures !HasProfile(store.profiles, id) && ValidateProfile(req) == [] ==>
              && |out.store.profiles| == |store.profiles| + 1
              && out.store.profiles[..|store.profiles|] == store.profiles
              && out.store.profiles[|store.profiles|] == Create(BuildFields(id, req))
  {
    var errs := ValidateProfile(req);
    if errs != [] then
      Outcome(store, Response(400, Errors(errs)))
    else
      var f := BuildFields(id, req);
      match FindProfile(store.profiles, id)
      case Some(k) =>
        var p := Merge(store.profiles[k], f);
        assert store.profiles[k := p][k] == p;
        Outcome(store.(profiles := store.profiles[k := p]), Response(200, ProfileEnvelope(Plain(p))))
      case None =>
        var p := Create(f);
        assert (store.profiles + [p])[|store.profiles|] == p;
        Outcome(store.(profiles := store.profiles + [p]), Response(200, ProfileEnvelope(Plain(p))))
  }

  /** One profile per user survives an upsert, and afterwards the caller has
      exactly one profile. */
  lemma UpsertKeepsOwnersUnique(store: Store, id: UserId, req: ProfileRequest)
    requires OwnersUnique(store.profiles)
    ensures var ps := Upsert(store, id, req).store.profiles;
            && OwnersUnique(ps)
            && (ValidateProfile(req) == [] ==>
                  forall i, j :: 0 <= i < |ps| && 0 <= j < |ps| && ps[i].user == id && ps[j].user == id ==> i == j)
  {
    var ps := Upsert(store, id, req).store.profiles;
    if ValidateProfile(req) == [] {
      match FindProfile(store.profiles, id)
      case Some(k) =>
        assert ps == store.profiles[k := Merge(store.profiles[k], BuildFields(id, req))];
      case None =>
        assert ps == store.profiles + [Create(BuildFields(id, req))];
    }
  }

  /** Updating an existing profile: every optional top-level key the request
      leaves falsy keeps its stored value, the others take the request's;
      skills are replaced; `social` is replaced by the newly built object,
      so a link left out is dropped; entries are untouched. */
  lemma UpsertUpdateSemantics(store: Store, id: UserId, req: ProfileRequest, k: nat)
    requires ValidateProfile(req) == []
    requires k < |store.profiles| && store.profiles[k].user == id
    requires forall j :: 0 <= j < k ==> store.profiles[j].user != id
    ensures var prior := store.profiles[k];
            var p := Upsert(store, id, req).store.profiles[k];
            && p.user == id
            && p.company == (if req.company != "" then Some(req.company) else prior.company)
            && p.website == (if req.website != "" then Some(req.website) else prior.website)
            && p.location == (if req.location != "" then Some(req.location) else prior.location)
            && p.status == Some(req.status)
            && p.bio == (if req.bio != "" then Some(req.bio) else prior.bio)
            && p.githubusername == (if req.githubusername != "" then Some(req.githubusername) else prior.githubusername)
            && p.skills == ParseSkills(req.skills)
            && p.social == BuildFields(id, req).social
            && (req.youtube == "" ==> p.social.youtube.None?)
            && p.experience == prior.experience && p.education == prior.education
  {
  }

  /** Repeating an upsert with the same body changes nothing more: the
      second call updates the profile the first one wrote into itself. */
  lemma UpsertIdempotent(store: Store, id: UserId, req: ProfileRequest)
    ensures var once := Upsert(store, id, req);
            Upsert(once.store, id, req) == once
  {
    var once := Upsert(store, id, req);
    if ValidateProfile(req) == [] {
      var f := BuildFields(id, req);
      var ps := once.store.profiles;
      match FindProfile(store.profiles, id)
      case Some(k) =>
        var p := Merge(store.profiles[k], f);
        FirstProfileIs(ps, id, k);
        MergeAgain(store.profiles[k], f);
        assert ps[k := p] == ps;
      case None =>
        var n := |store.profiles|;
        FirstProfileIs(ps, id, n);
        MergeAgain(Create(f), f);
        assert ps[n := Create(f)] == ps;
    }
  }

  /** Writing the same field set twice is writing it once. */
  lemma MergeAgain(p: Profile, f: ProfileFields)
    ensures Merge(Merge(p, f), f) == Merge(p, f)
    ensures Merge(Create(f), f) == Create(f)
  {
  }

  /** `findOne({user: id})` finds the first profile owned by `id`. */
  lemma FirstProfileIs(ps: seq<Profile>, id: UserId, k: nat)
    requires k < |ps| && ps[k].user == id
    requires forall j :: 0 <= j < k ==> ps[j].user != id
    ensures FindProfile(ps, id) == Some(k)
  {
    assert FindProfile(ps, id).Some?;
  }

  /** `GET /api/profile/me`: the caller's profile with its owner populated,
      or 400 when the caller has none. */
  function GetMine(store: Store, id: UserId): (r: Response)
    ensures r.status == 400 <==> !HasProfile(store.profiles, id)
    ensures r.status == 400 ==> r.body == Message(NoProfileForUser)
    ensures r.status != 400 ==>
              && r.status == 200 && r.body.ProfileDoc? && r.body.view.Populated?
              && r.body.view.profile in store.profiles && r.body.view.profile.user == id
              && r.body.view.owner == OwnerOf(store.users, id)
  {
    match FindProfile(store.profiles, id)
    case None => Response(400, Message(NoProfileForUser))
    case Some(k) => Response(200, ProfileDoc(Populated(store.profiles[k], OwnerOf(store.users, id))))
  }

  /** `GET /api/profile/user/:user_id`: an unknown or malformed id is the
      same 400 "Profile not found". */
  function GetByUser(store: Store, userId: string): (r: Response)
    ensures r.status == 400 <==> !HasProfile(store.profiles, userId)
    ensures r.status == 400 ==> r.body == Message(ProfileNotFound)
    ensures r.status != 400 ==>
              && r.status == 200 && r.body.ProfileEnvelope? && r.body.view.Populated?
              && r.body.view.profile in store.profiles && r.body.view.profile.user == userId
              && r.body.view.owner == OwnerOf(store.users, userId)
  {
    match FindProfile(store.profiles, userId)
    case None => Response(400, Message(ProfileNotFound))
    case Some(k) => Response(200, ProfileEnvelope(Populated(store.profiles[k], OwnerOf(store.users, userId))))
  }

  /** `GET /api/profile`: every profile in store order, each with its owner. */
  function ListProfiles(store: Store): (r: Response)
    ensures r.status == 200 && r.body.ProfilesEnvelope?
    ensures |r.body.views| == |store.profiles|
    ensures forall i :: 0 <= i < |store.profiles| ==>
              r.body.views[i] == Populated(store.profiles[i], OwnerOf(store.users, store.profiles[i].user))
  {
    var ps := store.profiles;
    Response(200, ProfilesEnvelope(seq(|ps|, i requires 0 <= i < |ps| => Populated(ps[i], OwnerOf(store.users, ps[i].user)))))
  }

  /** `Profile.findOneAndRemove({user: id})`: the first profile owned by
      `id` goes, the others keep their order. */
  function DropProfile(profiles: seq<Profile>, id: UserId): (r: seq<Profile>)
    ensures forall p :: p in r ==> p in profiles
    ensures forall p :: p in profiles && p.user != id ==> p in r
    ensures OwnersUnique(profiles) ==> !HasProfile(r, id)
    ensures HasProfile(profiles, id) ==>
              exists k: nat :: Seqs.FirstWith(profiles, ProfileOwner, id, k) && r == Seqs.RemoveAt(profiles, k)
    ensures !HasProfile(profiles, id) ==> r == profiles
  {
    match FindProfile(profiles, id)
    case Some(k) => Seqs.RemoveAt(profiles, k)
    case None => profiles
  }

  /** `User.findOneAndRemove({_id: id})`: the first user record with the id
      goes, the others keep their order. */
  function DropUser(users: seq<User>, id: UserId): (r: seq<User>)
    ensures forall u :: u in r ==> u in users
    ensures forall u :: u in users && u.id != id ==> u in r
    ensures IdsUnique(users) ==> forall u :: u in r ==> u.id != id
    ensures HasUser(users, id) ==>
              exists k: nat :: Seqs.FirstWith(users, UserKey, id, k) && r == Seqs.RemoveAt(users, k)
    ensures !HasUser(users, id) ==> r == users
  {
    match FindUserById(users, id)
    case Some(k) => Seqs.RemoveAt(users, k)
    case None => users
  }

  /** `DELETE /api/profile`: remove the caller's profile, then the caller's
      user record. Everything else stays, in order. */
  function DeleteAccount(store: Store, id: UserId): (out: Outcome)
    ensures out.response == Response(200, Message(UserDeleted))
    ensures forall p :: p in out.store.profiles ==> p in store.profiles
    ensures forall p :: p in store.profiles && p.user != id ==> p in out.store.profiles
    ensures forall u :: u in out.store.users ==> u in store.users
    ensures forall u :: u in store.users && u.id != id ==> u in out.store.users
    ensures OwnersUnique(store.profiles) ==> !HasProfile(out.store.profiles, id)
    ensures IdsUnique(store.users) ==> forall u :: u in out.store.users ==> u.id != id
    ensures HasProfile(store.profiles, id) ==>
              exists k: nat :: Seqs.FirstWith(store.profiles, ProfileOwner, id, k) && out.store.profiles == Seqs.RemoveAt(store.profiles, k)
    ensures !HasProfile(store.profiles, id) ==> out.store.profiles == store.profiles
    ensures HasUser(store.users, id) ==>
              exists k: nat :: Seqs.FirstWith(store.users, UserKey, id, k) && out.store.users == Seqs.RemoveAt(store.users, k)
    ensures !HasUser(store.users, id) ==> out.store.users == store.users
  {
    Outcome(Store(DropUser(store.users, id), DropProfile(store.profiles, id)), Response(200, Message(UserDeleted)))
  }

  // ---------------------------------------------------------------------
  // Experience and education entries

  /** `PUT /api/profile/experience` body. */
  datatype ExperienceRequest = ExperienceRequest(
    title: string, company: string, location: Option<string>, from: string,
    to: Option<string>, current: Option<bool>, description: Option<string>)

  /** `PUT /api/profile/eduation` body (the route path is misspelt; the
      handler is modelled as written). */
  datatype EducationRequest = EducationRequest(
    school: string, degree: string, fieldofstudy: string, from: string,
    to: Option<string>, current: Option<bool>, description: Option<string>)

  function ExperienceId(e: Experience): string { e.id }
  function EducationId(e: Education): string { e.id }

  /** What the experience validators report, in declaration order. */
  const ExperienceItems := [
    ErrorItem(TitleRequired, Some("title")), ErrorItem(CompanyRequired, Some("company")),
    ErrorItem(FromRequired, Some("from"))]

  /** The three experience validators: exactly the items of the failing
      checks, each once, in declaration order. */
  function ValidateExperience(req: ExperienceRequest): (errs: seq<ErrorItem>)
    ensures ReportsExactly(errs, [req.title != "", req.company != "", req.from != ""], ExperienceItems)
    ensures errs == [] <==> req.title != "" && req.company != "" && req.from != ""
    ensures ErrorItem(TitleRequired, Some("title")) in errs <==> req.title == ""
    ensures ErrorItem(CompanyRequired, Some("company")) in errs <==> req.company == ""
    ensures ErrorItem(FromRequired, Some("from")) in errs <==> req.from == ""
    ensures |errs| <= 3
  {
    var passed := [req.title != "", req.company != "", req.from != ""];
    var errs := Failures(passed, ExperienceItems);
    FailuresExact(passed, ExperienceItems);
    assert ExperienceItems[0] in errs <==> !passed[0];
    assert ExperienceItems[1] in errs <==> !passed[1];
    assert ExperienceItems[2] in errs <==> !passed[2];
    errs
  }

  /** What the education validators report, in declaration order. */
  const EducationItems := [
    ErrorItem(SchoolRequired, Some("school")), ErrorItem(DegreeRequired, Some("degree")),
    ErrorItem(FieldRequired, Some("fieldofstudy")), ErrorItem(FromRequired, Some("from"))]

  /** The four education validators: exactly the items of the failing
      checks, each once, in declaration order. */
  function ValidateEducation(req: EducationRequest): (errs: seq<ErrorItem>)
    ensures ReportsExactly(errs, [req.school != "", req.degree != "", req.fieldofstudy != "", req.from != ""], EducationItems)
    ensures errs == [] <==> req.school != "" && req.degree != "" && req.fieldofstudy != "" && req.from != ""
    ensures ErrorItem(SchoolRequired, Some("school")) in errs <==> req.school == ""
    ensures ErrorItem(DegreeRequired, Some("degree")) in errs <==> req.degree == ""
    ensures ErrorItem(FieldRequired, Some("fieldofstudy")) in errs <==> req.fieldofstudy == ""
    ensures ErrorItem(FromRequired, Some("from")) in errs <==> req.from == ""
    ensures |errs| <= 4
  {
    var passed := [req.school != "", req.degree != "", req.fieldofstudy != "", req.from != ""];
    var errs := Failures(passed, EducationItems);
    FailuresExact(passed, EducationItems);
    assert EducationItems[0] in errs <==> !passed[0];
    assert EducationItems[1] in errs <==> !passed[1];
    assert EducationItems[2] in errs <==> !passed[2];
    assert EducationItems[3] in errs <==> !passed[3];
    errs
  }

  /** Position of the caller's profile: the first one the store holds for `id`. */
  function MineAt(profiles: seq<Profile>, id: UserId): (k: nat)
    requires HasProfile(profiles, id)
    ensures k < |profiles| && profiles[k].user == id
    ensures forall j :: 0 <= j < k ==> profiles[j].user != id
  {
    FindProfile(profiles, id).value
  }

  /** The caller's profile replaced by `p` in place; the response is the
      bare new document. */
  function Save(store: Store, id: UserId, p: Profile): Outcome
    requires HasProfile(store.profiles, id)
  {
    Outcome(store.(profiles := store.profiles[MineAt(store.profiles, id) := p]), Response(200, ProfileDoc(Plain(p))))
  }

  /** `PUT /api/profile/experience`. The handler reads the caller's profile
      without checking it exists, so a valid request needs one. `newId` is
      the id the store gives the new sub-document. */
  function AddExperience(store: Store, id: UserId, req: ExperienceRequest, newId: string): (out: Outcome)
    requires ValidateExperience(req) == [] ==> HasProfile(store.profiles, id)
    ensures ValidateExperience(req) != [] ==> out == Outcome(store, Response(400, Errors(ValidateExperience(req))))
    ensures ValidateExperience(req) == [] ==>
              && out.store.users == store.users
              && |out.store.profiles| == |store.profiles|
              && var k := MineAt(store.profiles, id);
                 var prior := store.profiles[k];
                 var p := out.store.profiles[k];
                 var e := Experience(newId, req.title, req.company, req.location, req.from, req.to, req.current, req.description);
                 && out.store.profiles == store.profiles[k := p]
                 && out.response == Response(200, ProfileDoc(Plain(p)))
                 && |p.experience| == |prior.experience| + 1
                 && p.experience[0] == e && p.experience[1..] == prior.experience
                 && p.(experience := prior.experience) == prior
  {
    var errs := ValidateExperience(req);
    if errs != [] then Outcome(store, Response(400, Errors(errs)))
    else
      var e := Experience(newId, req.title, req.company, req.location, req.from, req.to, req.current, req.description);
      var prior := store.profiles[MineAt(store.profiles, id)];
      Save(store, id, prior.(experience := [e] + prior.experience))
  }

  /** `PUT /api/profile/eduation`. */
  function AddEducation(store: Store, id: UserId, req: EducationRequest, newId: string): (out: Outcome)
    requires ValidateEducation(req) == [] ==> HasProfile(store.profiles, id)
    ensures ValidateEducation(req) != [] ==> out == Outcome(store, Response(400, Errors(ValidateEducation(req))))
    ensures ValidateEducation(req) == [] ==>
              && out.store.users == store.users
              && |out.store.profiles| == |store.profiles|
              && var k := MineAt(store.profiles, id);
                 var prior := store.profiles[k];
                 var p := out.store.profiles[k];
                 var e := Education(newId, req.school, req.degree, req.fieldofstudy, req.from, req.to, req.current, req.description);
                 && out.store.profiles == store.profiles[k := p]
                 && out.response == Response(200, ProfileDoc(Plain(p)))
                 && |p.education| == |prior.education| + 1
                 && p.education[0] == e && p.education[1..] == prior.education
                 && p.(education := prior.education) == prior
  {
    var errs := ValidateEducation(req);
    if errs != [] then Outcome(store, Response(400, Errors(errs)))
    else
      var e := Education(newId, req.school, req.degree, req.fieldofstudy, req.from, req.to, req.current, req.description);
      var prior := store.profiles[MineAt(store.profiles, id)];
      Save(store, id, prior.(education := [e] + prior.education))
  }

  /** `DELETE /api/profile/experience/:exp_id`, `indexOf` and `splice` as
      written: the first entry with the id goes; with no such entry the
      last one goes. */
  function RemoveExperience(store: Store, id: UserId, expId: string): (out: Outcome)
    requires HasProfile(store.profiles, id)
    ensures out.store.users == store.users
    ensures |out.store.profiles| == |store.profiles|
    ensures var k := MineAt(store.profiles, id);
            var before := store.profiles[k].experience;
            var p := out.store.profiles[k];
            && out.store.profiles == store.profiles[k := p]
            && out.response == Response(200, ProfileDoc(Plain(p)))
            && p == store.profiles[k].(experience := p.experience)
            && (forall i | Seqs.FirstWith(before, ExperienceId, expId, i) :: p.experience == before[..i] + before[i + 1..])
            && (JsArray.Absent(before, ExperienceId, expId) && |before| > 0 ==> p.experience == before[..|before| - 1])
            && (|before| == 0 ==> p.experience == before)
  {
    var prior := store.profiles[MineAt(store.profiles, id)];
    Save(store, id, prior.(experience := JsArray.RemoveById(prior.experience, ExperienceId, expId)))
  }

  /** `DELETE /api/profile/education/:edu_id`, same discipline. */
  function RemoveEducation(store: Store, id: UserId, eduId: string): (out: Outcome)
    requires HasProfile(store.profiles, id)
    ensures out.store.users == store.users
    ensures |out.store.profiles| == |store.profiles|
    ensures var k := MineAt(store.profiles, id);
            var before := store.profiles[k].education;
            var p := out.store.profiles[k];
            && out.store.profiles == store.profiles[k := p]
            && out.response == Response(200, ProfileDoc(Plain(p)))
            && p == store.profiles[k].(education := p.education)
            && (forall i | Seqs.FirstWith(before, EducationId, eduId, i) :: p.education == before[..i] + before[i + 1..])
            && (JsArray.Absent(before, EducationId, eduId) && |before| > 0 ==> p.education == before[..|before| - 1])
            && (|before| == 0 ==> p.education == before)
  {
    var prior := store.profiles[MineAt(store.profiles, id)];
    Save(store, id, prior.(education := JsArray.RemoveById(prior.education, EducationId, eduId)))
  }

  /** Adding an experience entry and then removing it by the id it was
      given restores the store exactly. */
  lemma AddThenRemoveExperience(store: Store, id: UserId, req: ExperienceRequest, newId: string)
    requires ValidateExperience(req) == [] && HasProfile(store.profiles, id)
    ensures RemoveExperience(AddExperience(store, id, req, newId).store, id, newId).store == store
  {
    var k := MineAt(store.profiles, id);
    var prior := store.profiles[k];
    var added := AddExperience(store, id, req, newId).store;
    var p := added.profiles[k];
    FirstProfileIs(added.profiles, id, k);
    JsArray.RemoveUnshifted(prior.experience, ExperienceId, p.experience[0]);
    assert p.experience == [p.experience[0]] + prior.experience;
    assert store.profiles[k := p][k := prior] == store.profiles;
  }

  /** Adding an education entry and then removing it by the id it was
      given restores the store exactly. */
  lemma AddThenRemoveEducation(store: Store, id: UserId, req: EducationRequest, newId: string)
    requires ValidateEducation(req) == [] && HasProfile(store.profiles, id)
    ensures RemoveEducation(AddEducation(store, id, req, newId).store, id, newId).store == store
  {
    var k := MineAt(store.profiles, id);
    var prior := store.profiles[k];
    var added := AddEducation(store, id, req, newId).store;
    var p := added.profiles[k];
    FirstProfileIs(added.profiles, id, k);
    JsArray.RemoveUnshifted(prior.education, EducationId, p.education[0]);
    assert p.education == [p.education[0]] + prior.education;
    assert store.profiles[k := p][k := prior] == store.profiles;
  }
}

=== FILE: seqs.dfy ===
/** Queries over the in-memory collections that stand for the document store. */
module Seqs {
  import opened Wrappers

  /** Index of the first element satisfying `p`: what a `findOne` query over a
      collection returns when several documents match. */
  function Find<T>(s: seq<T>, p: T -> bool): (r: Option<nat>)
    ensures r.Some? ==> r.value < |s| && p(s[r.value])
    ensures r.Some? ==> forall j :: 0 <= j < r.value ==> !p(s[j])
    ensures r.None? <==> forall j :: 0 <= j < |s| ==> !p(s[j])
    decreases |s|
  {
    if |s| == 0 then None
    else if p(s[0]) then Some(0)
    else
      match Find(s[1..], p)
      case None => None
      case Some(k) => Some(k + 1)
  }

  /** `k` is the position of the first element of `s` whose key is `v`. */
  ghost predicate FirstWith<T>(s: seq<T>, key: T -> string, v: string, k: int)
  {
    0 <= k < |s| && key(s[k]) == v && forall j :: 0 <= j < k ==> key(s[j]) != v
  }

  /** `s` without its element at index `k`; the others keep their order. */
  function RemoveAt<T>(s: seq<T>, k: nat): (r: seq<T>)
    requires k < |s|
    ensures |r| == |s| - 1
    ensures forall j :: 0 <= j < k ==> r[j] == s[j]
    ensures forall j :: k <= j < |r| ==> r[j] == s[j + 1]
  {
    s[..k] + s[k + 1..]
  }
}

=== FILE: text.dfy ===
/** The two string operations the profile upsert applies to the skills input:
    `String.prototype.split(",")` and `String.prototype.trim()`. */
module Text {

  /** The characters `trim` strips: ECMAScript's WhiteSpace (tab, vertical tab,
      form feed, space, no-break space, byte order mark and the Unicode "Zs"
      space separators) and LineTerminator (LF, CR, U+2028, U+2029). */
  predicate IsWhitespace(c: char)
  {
    || c == '\t' || c == '\U{B}' || c == '\U{C}' || c == ' ' || c == '\U{A0}' || c == '\U{FEFF}'
    || c == '\U{1680}' || ('\U{2000}' <= c <= '\U{200A}') || c == '\U{202F}' || c == '\U{205F}'
    || c == '\U{3000}'
    || c == '\n' || c == '\r' || c == '\U{2028}' || c == '\U{2029}'
  }

  ghost predicate AllWhitespace(s: string)
  {
    forall i :: 0 <= i < |s| ==> IsWhitespace(s[i])
  }

  /** Neither the first nor the last character is whitespace. */
  ghost predicate IsTrimmed(s: string)
  {
    |s| == 0 || (!IsWhitespace(s[0]) && !IsWhitespace(s[|s| - 1]))
  }

  /** `s` with its leading whitespace removed. */
  function TrimStart(s: string): (r: string)
    ensures |r| <= |s| && r == s[|s| - |r|..]
    ensures AllWhitespace(s[..|s| - |r|])
    ensures |r| > 0 ==> !IsWhitespace(r[0])
    decreases |s|
  {
    if |s| > 0 && IsWhitespace(s[0]) then TrimStart(s[1..]) else s
  }

  /** `s` with its trailing whitespace removed. */
  function TrimEnd(s: string): (r: string)
    ensures |r| <= |s| && r == s[..|r|]
    ensures AllWhitespace(s[|r|..])
    ensures |r| > 0 ==> !IsWhitespace(r[|r| - 1])
    decreases |s|
  {
    if |s| > 0 && IsWhitespace(s[|s| - 1]) then TrimEnd(s[..|s| - 1]) else s
  }

  /** `trim`: leading and trailing whitespace removed, the middle untouched. */
  function Trim(s: string): (r: string)
    ensures IsTrimmed(r)
    ensures |r| <= |s|
  {
    TrimEnd(TrimStart(s))
  }

  /** `trim` keeps a contiguous slice of its input and cuts only whitespace
      from either end. */
  lemma TrimCutsWhitespace(s: string)
    ensures exists i, j :: 0 <= i <= j <= |s| && Trim(s) == s[i..j] && AllWhitespace(s[..i]) && AllWhitespace(s[j..])
  {
    TrimIsSlice(s, TrimStart(s), Trim(s));
  }

  lemma TrimIsSlice(s: string, t: string, r: string)
    requires |t| <= |s| && t == s[|s| - |t|..] && AllWhitespace(s[..|s| - |t|])
    requires |r| <= |t| && r == t[..|r|] && AllWhitespace(t[|r|..])
    ensures exists i, j :: 0 <= i <= j <= |s| && r == s[i..j] && AllWhitespace(s[..i]) && AllWhitespace(s[j..])
  {
    var i := |s| - |t|;
    var j := i + |r|;
    assert r == s[i..j];
    assert t[|r|..] == s[j..];
  }

  /** Number of occurrences of `c` in `s`. */
  function Count(s: string, c: char): nat
  {
    if |s| == 0 then 0 else (if s[0] == c then 1 else 0) + Count(s[1..], c)
  }

  /** `parts.join(sep)` */
  function Join(parts: seq<string>, sep: char): string
  {
    if |parts| == 0 then ""
    else if |parts| == 1 then parts[0]
    else parts[0] + [sep] + Join(parts[1..], sep)
  }

  /** `s.split(sep)` for a one-character separator: the maximal separator-free
      pieces, in order, one more than there are separators. */
  function Split(s: string, sep: char): (parts: seq<string>)
    ensures |parts| == Count(s, sep) + 1
    ensures forall i :: 0 <= i < |parts| ==> sep !in parts[i]
    ensures Join(parts, sep) == s
    decreases |s|
  {
    if |s| == 0 then [""]
    else
      var rest := Split(s[1..], sep);
      if s[0] == sep then
        assert [""] + rest == [""] + [rest[0]] + rest[1..];
        [""] + rest
      else
        var parts := [[s[0]] + rest[0]] + rest[1..];
        JoinExtendFirst(s[0], rest, sep);
        parts
  }

  /** Prepending a character to the first piece prepends it to the join. */
  lemma JoinExtendFirst(c: char, parts: seq<string>, sep: char)
    requires |parts| > 0
    ensures Join([[c] + parts[0]] + parts[1..], sep) == [c] + Join(parts, sep)
  {
    var ext := [[c] + parts[0]] + parts[1..];
    assert ext[1..] == parts[1..];
  }

  /** Split is the only way to cut `s` into separator-free pieces: any such
      sequence of pieces whose join is `s` is `Split(s, sep)`. */
  lemma {:induction false} SplitUnique(s: string, sep: char, parts: seq<string>)
    requires forall i :: 0 <= i < |parts| ==> sep !in parts[i]
    requires |parts| > 0 && Join(parts, sep) == s
    ensures parts == Split(s, sep)
    decreases |s|
  {
    if |parts[0]| == 0 {
      if |parts| == 1 {
        assert s == "";
      } else {
        assert s == [sep] + Join(parts[1..], sep);
        assert s[1..] == Join(parts[1..], sep);
        SplitUnique(s[1..], sep, parts[1..]);
        assert parts == [""] + parts[1..];
      }
    } else {
      var tail := [parts[0][1..]] + parts[1..];
      assert parts[0] == [parts[0][0]] + parts[0][1..];
      assert tail[1..] == parts[1..];
      assert parts == [[parts[0][0]] + tail[0]] + tail[1..];
      JoinExtendFirst(parts[0][0], tail, sep);
      assert s == [parts[0][0]] + Join(tail, sep);
      assert s[1..] == Join(tail, sep);
      assert forall i :: 0 <= i < |tail| ==> sep !in tail[i] by {
        forall i | 0 <= i < |tail| ensures sep !in tail[i] {
          if i == 0 {
            assert forall c :: c in parts[0][1..] ==> c in parts[0];
          } else {
            assert tail[i] == parts[i];
          }
        }
      }
      SplitUnique(s[1..], sep, tail);
      assert s[0] == parts[0][0] && s[0] != sep;
    }
  }

  /** A leading run of whitespace does not change `TrimStart`. */
  lemma {:induction false} TrimStartSkips(pre: string, rest: string)
    requires AllWhitespace(pre)
    ensures TrimStart(pre + rest) == TrimStart(rest)
    decreases |pre|
  {
    if |pre| > 0 {
      assert (pre + rest)[1..] == pre[1..] + rest;
      TrimStartSkips(pre[1..], rest);
    } else {
      assert pre + rest == rest;
    }
  }

  /** A trailing run of whitespace does not change `TrimEnd`. */
  lemma {:induction false} TrimEndSkips(rest: string, post: string)
    requires AllWhitespace(post)
    ensures TrimEnd(rest + post) == TrimEnd(rest)
    decreases |post|
  {
    if |post| > 0 {
      var s := rest + post;
      assert s[..|s| - 1] == rest + post[..|post| - 1];
      TrimEndSkips(rest, post[..|post| - 1]);
    } else {
      assert rest + post == rest;
    }
  }

  /** `trim` removes exactly the surrounding whitespace: if `s` is a trimmed
      core `m` between two whitespace-only runs, `Trim(s)` is `m`. */
  lemma TrimUnique(pre: string, m: string, post: string)
    requires AllWhitespace(pre) && AllWhitespace(post) && IsTrimmed(m)
    ensures Trim(pre + m + post) == m
  {
    assert pre + m + post == pre + (m + post);
    TrimStartSkips(pre, m + post);
    if |m| == 0 {
      assert m + post == post;
      assert TrimStart(post) == "";
    } else {
      assert TrimStart(m + post) == m + post;
      TrimEndSkips(m, post);
    }
  }

  /** `trim` leaves a string without surrounding whitespace as it is. */
  lemma TrimFixes(s: string)
    requires IsTrimmed(s)
    ensures Trim(s) == s
  {
    assert "" + s + "" == s;
    TrimUnique("", s, "");
  }
}

=== FILE: users.dfy ===
/** `POST /api/users`: registration. */
module UsersRoute {
  import opened Wrappers
  import opened Model
  import opened Validation

  const NameRequired := "Name is required"
  const InvalidEmail := "Enter Valid Email"
  const PasswordTooShort := "Password is required 6 or more charachter"
  const UserExists := "User already exisits"
  const MinPasswordLength: nat := 6

  /** The request body; a missing field reads as the empty string, as it
      does for the validators. */
  datatype RegisterRequest = RegisterRequest(name: string, email: string, password: string)

  /** The variation selectors VS15 and VS16, which `isLength` does not count. */
  predicate IsPresentationSelector(c: char)
  {
    c == '\U{FE0E}' || c == '\U{FE0F}'
  }

  /** The length `isLength` compares: the number of code points (UTF-16 units
      less surrogate pairs, which is one per `char` here) less the number of
      presentation selectors. */
  function IsLengthCount(s: string): (n: nat)
    ensures n <= |s|
    ensures n == |s| <==> forall i :: 0 <= i < |s| ==> !IsPresentationSelector(s[i])
    decreases |s|
  {
    if |s| == 0 then 0
    else
      var rest := IsLengthCount(s[1..]);
      assert forall i :: 1 <= i < |s| ==> s[i] == s[1..][i - 1];
      (if IsPresentationSelector(s[0]) then 0 else 1) + rest
  }

  /** Appending presentation selectors does not make a string longer to `isLength`. */
  lemma {:induction false} SelectorsDoNotCount(s: string, t: string)
    requires forall i :: 0 <= i < |t| ==> IsPresentationSelector(t[i])
    ensures IsLengthCount(s + t) == IsLengthCount(s)
    decreases |s|
  {
    if |s| == 0 {
      assert s + t == t;
      SelectorsCountZero(t);
    } else {
      assert (s + t)[1..] == s[1..] + t;
      SelectorsDoNotCount(s[1..], t);
    }
  }

  lemma {:induction false} SelectorsCountZero(t: string)
    requires forall i :: 0 <= i < |t| ==> IsPresentationSelector(t[i])
    ensures IsLengthCount(t) == 0
    decreases |t|
  {
    if |t| > 0 {
      SelectorsCountZero(t[1..]);
    }
  }

  /** What the registration validators report, in declaration order. */
  const RegisterItems := [
    ErrorItem(NameRequired, Some("name")), ErrorItem(InvalidEmail, Some("email")),
    ErrorItem(PasswordTooShort, Some("password"))]

  /** The three registration validators: exactly the items of the failing
      checks, each once, in declaration order. */
  function Validate(env: Env, req: RegisterRequest): (errs: seq<ErrorItem>)
    ensures ReportsExactly(errs, [req.name != "", env.isEmail(req.email), IsLengthCount(req.password) >= MinPasswordLength], RegisterItems)
    ensures errs == [] <==> req.name != "" && env.isEmail(req.email) && IsLengthCount(req.password) >= MinPasswordLength
    ensures ErrorItem(NameRequired, Some("name")) in errs <==> req.name == ""
    ensures ErrorItem(InvalidEmail, Some("email")) in errs <==> !env.isEmail(req.email)
    ensures ErrorItem(PasswordTooShort, Some("password")) in errs <==> IsLengthCount(req.password) < MinPasswordLength
    ensures |errs| <= 3
  {
    var passed := [req.name != "", env.isEmail(req.email), IsLengthCount(req.password) >= MinPasswordLength];
    var errs := Failures(passed, RegisterItems);
    FailuresExact(passed, RegisterItems);
    assert RegisterItems[0] in errs <==> !passed[0];
    assert RegisterItems[1] in errs <==> !passed[1];
    assert RegisterItems[2] in errs <==> !passed[2];
    errs
  }

  /** Five ordinary characters followed by a presentation selector are six
      `char`s but only five to `isLength`, so the password is refused. */
  lemma SelectorPaddedPasswordRejected(env: Env, req: RegisterRequest, sel: char)
    requires |req.password| == 6 && IsPresentationSelector(sel) && req.password[5] == sel
    requires forall i :: 0 <= i < 5 ==> !IsPresentationSelector(req.password[i])
    ensures ErrorItem(PasswordTooShort, Some("password")) in Validate(env, req)
  {
    var p := req.password;
    assert p == p[..5] + [sel];
    SelectorsDoNotCount(p[..5], [sel]);
  }

  /** The record a successful registration stores: the gravatar of the
      e-mail and the bcrypt hash of the password under a cost-10 salt. */
  function NewUser(env: Env, req: RegisterRequest, newId: UserId, saltSeed: nat): User
  {
    User(newId, req.name, req.email,
         env.hash(req.password, env.genSalt(SaltRounds, saltSeed)),
         env.avatarUrl(req.email, AvatarDefaults))
  }

  /** Registration succeeds exactly when the input is valid and the e-mail is new. */
  ghost predicate Accepts(env: Env, users: seq<User>, req: RegisterRequest)
  {
    Validate(env, req) == [] && forall j :: 0 <= j < |users| ==> users[j].email != req.email
  }

  /** The handler. `newId` is the id the store assigns to the new document
      and `saltSeed` the randomness `genSalt` draws. */
  function Register(env: Env, store: Store, req: RegisterRequest, newId: UserId, saltSeed: nat): (out: Outcome)
    ensures out.store.profiles == store.profiles
    ensures out.response.status == 200 <==> Accepts(env, store.users, req)
    ensures !Accepts(env, store.users, req) ==> out.store == store && out.response.status == 400
    ensures Validate(env, req) != [] ==> out.response.body == Errors(Validate(env, req))
    ensures Validate(env, req) == [] && !Accepts(env, store.users, req) ==>
              out.response.body == Errors([ErrorItem(UserExists, None)])
    ensures Accepts(env, store.users, req) ==>
              && |out.store.users| == |store.users| + 1
              && out.store.users[..|store.users|] == store.users
              && out.store.users[|store.users|].id == newId
              && out.store.users[|store.users|].name == req.name
              && out.store.users[|store.users|].email == req.email
              && out.store.users[|store.users|].password == env.hash(req.password, env.genSalt(SaltRounds, saltSeed))
              && out.store.users[|store.users|].avatar == env.avatarUrl(req.email, AvatarDefaults)
              && out.response.body == TokenBody(env.sign(Claim(newId), TokenLifetime))
  {
    var errs := Validate(env, req);
    if errs != [] then
      Outcome(store, Response(400, Errors(errs)))
    else if FindUserByEmail(store.users, req.email).Some? then
      Outcome(store, Response(400, Errors([ErrorItem(UserExists, None)])))
    else
      var user := NewUser(env, req, newId, saltSeed);
      Outcome(store.(users := store.users + [user]),
              Response(200, TokenBody(env.sign(Claim(newId), TokenLifetime))))
  }

  /** Registration never creates a second user with an existing e-mail. */
  lemma RegisterKeepsEmailsUnique(env: Env, store: Store, req: RegisterRequest, newId: UserId, saltSeed: nat)
    requires EmailsUnique(store.users)
    ensures EmailsUnique(Register(env, store, req, newId, saltSeed).store.users)
  {
  }

  /** With a fresh id from the store, user ids stay unique too. */
  lemma RegisterKeepsIdsUnique(env: Env, store: Store, req: RegisterRequest, newId: UserId, saltSeed: nat)
    requires IdsUnique(store.users)
    requires forall j :: 0 <= j < |store.users| ==> store.users[j].id != newId
    ensures IdsUnique(Register(env, store, req, newId, saltSeed).store.users)
  {
  }

  /** Registering an e-mail a second time fails with "User already exisits"
      and stores nothing, whatever name, password, id or salt comes with it. */
  lemma SecondRegistrationRejected(env: Env, store: Store, first: RegisterRequest, second: RegisterRequest,
                                   id1: UserId, id2: UserId, seed1: nat, seed2: nat)
    requires Register(env, store, first, id1, seed1).response.status == 200
    requires second.email == first.email && Validate(env, second) == []
    ensures var after := Register(env, store, first, id1, seed1).store;
            Register(env, after, second, id2, seed2) == Outcome(after, Response(400, Errors([ErrorItem(UserExists, None)])))
  {
    var after := Register(env, store, first, id1, seed1).store;
    assert after.users[|store.users|].email == second.email;
  }

  /** The avatar is a function of the e-mail alone: two successful
      registrations with the same e-mail store the same avatar, whatever the
      names, passwords, stores, ids and salts. */
  lemma AvatarDependsOnEmailOnly(env: Env, s1: Store, s2: Store, r1: RegisterRequest, r2: RegisterRequest,
                                 id1: UserId, id2: UserId, seed1: nat, seed2: nat)
    requires r1.email == r2.email
    requires Register(env, s1, r1, id1, seed1).response.status == 200
    requires Register(env, s2, r2, id2, seed2).response.status == 200
    ensures Register(env, s1, r1, id1, seed1).store.users[|s1.users|].avatar
         == Register(env, s2, r2, id2, seed2).store.users[|s2.users|].avatar
  {
  }
}

=== FILE: validation.dfy ===
/** What express-validator's `validationResult(req).array()` returns for a
    route's chain of `body(field, msg)` checks: the item of every failing
    check, once, in the order the checks are declared. */
module Validation {
  import opened Model

  /** Number of failing checks. */
  function FailCount(passed: seq<bool>): (n: nat)
    ensures n <= |passed|
  {
    if |passed| == 0 then 0 else (if passed[0] then 0 else 1) + FailCount(passed[1..])
  }

  /** The error list of a check chain: check k passed exactly when
      `passed[k]`, and reports `items[k]` when it fails. */
  function Failures(passed: seq<bool>, items: seq<ErrorItem>): (errs: seq<ErrorItem>)
    requires |passed| == |items|
    ensures |errs| == FailCount(passed)
    ensures errs == [] <==> forall k :: 0 <= k < |passed| ==> passed[k]
    ensures forall e :: e in errs ==> e in items
  {
    if |passed| == 0 then []
    else (if passed[0] then [] else [items[0]]) + Failures(passed[1..], items[1..])
  }

  /** No check of the chain reports the same item as another. */
  ghost predicate Distinct(items: seq<ErrorItem>)
  {
    forall i, j :: 0 <= i < j < |items| ==> items[i] != items[j]
  }

  /** Position of `e` among the declared items; `|items|` when it is not one. */
  function Rank(items: seq<ErrorItem>, e: ErrorItem): (k: nat)
    ensures k <= |items|
    ensures k < |items| <==> e in items
    ensures k < |items| ==> items[k] == e
  {
    if |items| == 0 then 0
    else if items[0] == e then 0
    else 1 + Rank(items[1..], e)
  }

  /** Every item of `errs` is one of the declared items. */
  ghost predicate OnlyDeclared(errs: seq<ErrorItem>, items: seq<ErrorItem>)
  {
    forall e :: e in errs ==> e in items
  }

  /** A declared item is reported exactly when its check fails. */
  ghost predicate FlagsMatch(errs: seq<ErrorItem>, passed: seq<bool>, items: seq<ErrorItem>)
    requires |passed| == |items|
  {
    forall k :: 0 <= k < |items| ==> (items[k] in errs <==> !passed[k])
  }

  /** The items of `errs` come in strictly increasing declaration order. */
  ghost predicate InOrder(errs: seq<ErrorItem>, items: seq<ErrorItem>)
  {
    forall i, j :: 0 <= i < j < |errs| ==> Rank(items, errs[i]) < Rank(items, errs[j])
  }

  /** `errs` is the error list of the chain, stated without computing it:
      only declared items, a check's item exactly when that check fails,
      each at most once and in declaration order. */
  ghost predicate ReportsExactly(errs: seq<ErrorItem>, passed: seq<bool>, items: seq<ErrorItem>)
    requires |passed| == |items|
  {
    && |errs| == FailCount(passed)
    && OnlyDeclared(errs, items)
    && FlagsMatch(errs, passed, items)
    && InOrder(errs, items)
  }

  /** With distinct items, `Failures` is such an error list. */
  lemma {:induction false} FailuresExact(passed: seq<bool>, items: seq<ErrorItem>)
    requires |passed| == |items| && Distinct(items)
    ensures ReportsExactly(Failures(passed, items), passed, items)
  {
    if |items| > 0 {
      var tail := Failures(passed[1..], items[1..]);
      FailuresExact(passed[1..], items[1..]);
      TailAvoidsHead(tail, items);
      ConsDeclared(tail, passed[0], items);
      ConsFlags(tail, passed, items);
      ConsOrder(tail, passed[0], items);
    }
  }

  /** Check 0's item, or nothing, before a list of declared items. */
  lemma ConsDeclared(tail: seq<ErrorItem>, ok: bool, items: seq<ErrorItem>)
    requires |items| > 0
    requires forall e :: e in tail ==> e in items
    ensures OnlyDeclared((if ok then [] else [items[0]]) + tail, items)
  {
  }

  /** Prefixing check 0's item when it fails extends the flag agreement of
      checks 1.. to the whole chain. */
  lemma ConsFlags(tail: seq<ErrorItem>, passed: seq<bool>, items: seq<ErrorItem>)
    requires |passed| == |items| > 0 && Distinct(items)
    requires FlagsMatch(tail, passed[1..], items[1..])
    requires forall e :: e in tail ==> e != items[0]
    ensures FlagsMatch((if passed[0] then [] else [items[0]]) + tail, passed, items)
  {
    var errs := (if passed[0] then [] else [items[0]]) + tail;
    forall k | 0 <= k < |items| ensures items[k] in errs <==> !passed[k] {
      if k > 0 {
        assert items[1..][k - 1] == items[k] && items[k] != items[0];
      }
    }
  }

  /** Prefixing check 0's item, when it fails, keeps the list in
      declaration order. */
  lemma ConsOrder(tail: seq<ErrorItem>, ok: bool, items: seq<ErrorItem>)
    requires |items| > 0
    requires InOrder(tail, items[1..])
    requires forall e :: e in tail ==> e in items && e != items[0] && Rank(items, e) == 1 + Rank(items[1..], e)
    ensures InOrder((if ok then [] else [items[0]]) + tail, items)
  {
    if ok {
      assert [] + tail == tail;
      ShiftOrder(tail, items);
    } else {
      ShiftOrder(tail, items);
      PrefixOrder(tail, items);
    }
  }

  /** A list in order among checks 1.. is in order among the whole chain. */
  lemma ShiftOrder(tail: seq<ErrorItem>, items: seq<ErrorItem>)
    requires |items| > 0
    requires InOrder(tail, items[1..])
    requires forall e :: e in tail ==> Rank(items, e) == 1 + Rank(items[1..], e)
    ensures InOrder(tail, items)
  {
    forall i, j | 0 <= i < j < |tail| ensures Rank(items, tail[i]) < Rank(items, tail[j]) {
      assert tail[i] in tail && tail[j] in tail;
    }
  }

  /** Check 0's item goes before any in-order list of later items. */
  lemma PrefixOrder(tail: seq<ErrorItem>, items: seq<ErrorItem>)
    requires |items| > 0
    requires InOrder(tail, items)
    requires forall e :: e in tail ==> e != items[0]
    ensures InOrder([items[0]] + tail, items)
  {
    forall i, j | 0 <= i < j < 1 + |tail|
      ensures Rank(items, ([items[0]] + tail)[i]) < Rank(items, ([items[0]] + tail)[j])
    {
      PrefixPair(tail, items, i, j);
    }
  }

  /** One pair of positions of `PrefixOrder`. */
  lemma PrefixPair(tail: seq<ErrorItem>, items: seq<ErrorItem>, i: nat, j: nat)
    requires |items| > 0 && i < j <= |tail|
    requires InOrder(tail, items)
    requires forall e :: e in tail ==> e != items[0]
    ensures Rank(items, ([items[0]] + tail)[i]) < Rank(items, ([items[0]] + tail)[j])
  {
    var y := tail[j - 1];
    assert ([items[0]] + tail)[j] == y && y in tail;
    if i == 0 {
      assert ([items[0]] + tail)[0] == items[0];
    } else {
      assert ([items[0]] + tail)[i] == tail[i - 1];
    }
  }

  /** The items of a list drawn from checks 1.. differ from check 0's item,
      and their rank in the whole chain is one more than in the rest. */
  lemma TailAvoidsHead(tail: seq<ErrorItem>, items: seq<ErrorItem>)
    requires |items| > 0 && Distinct(items)
    requires forall e :: e in tail ==> e in items[1..]
    ensures forall e :: e in tail ==> e in items && e != items[0] && Rank(items, e) == 1 + Rank(items[1..], e)
  {
    forall e | e in tail ensures e in items && e != items[0] {
      var j :| 0 <= j < |items| - 1 && items[1..][j] == e;
      assert items[j + 1] == e;
    }
  }

  /** Conversely, the error list is determined: any list that reports the
      chain exactly is `Failures`. */
  lemma {:induction false} ReportDetermined(errs: seq<ErrorItem>, passed: seq<bool>, items: seq<ErrorItem>)
    requires |passed| == |items| && Distinct(items)
    requires ReportsExactly(errs, passed, items)
    ensures errs == Failures(passed, items)
  {
    if |items| == 0 {
    } else if passed[0] {
      assert items[0] !in errs;
      ReportsTail(errs, passed, items);
      ReportDetermined(errs, passed[1..], items[1..]);
    } else {
      HeadReported(errs, passed, items);
      ReportsTail(errs[1..], passed, items);
      ReportDetermined(errs[1..], passed[1..], items[1..]);
      assert errs == [items[0]] + errs[1..];
    }
  }

  /** When check 0 fails, an exact report starts with its item, and the rest
      of the report satisfies the premises of `ReportsTail`. */
  lemma HeadReported(errs: seq<ErrorItem>, passed: seq<bool>, items: seq<ErrorItem>)
    requires |passed| == |items| > 0 && Distinct(items) && !passed[0]
    requires ReportsExactly(errs, passed, items)
    ensures |errs| > 0 && errs[0] == items[0]
    ensures items[0] !in errs[1..]
    ensures |errs[1..]| == FailCount(passed[1..])
    ensures forall e :: e in errs[1..] ==> e in items
    ensures forall k :: 0 < k < |items| ==> (items[k] in errs[1..] <==> !passed[k])
    ensures forall i, j :: 0 <= i < j < |errs[1..]| ==> Rank(items, errs[1..][i]) < Rank(items, errs[1..][j])
  {
    var m :| 0 <= m < |errs| && errs[m] == items[0];
    assert errs[0] == items[0];
    var rest := errs[1..];
    assert errs == [errs[0]] + rest;
    forall i | 0 <= i < |rest| ensures rest[i] != items[0] {
      assert Rank(items, errs[0]) < Rank(items, errs[i + 1]);
    }
    forall k | 0 < k < |items| ensures items[k] in rest <==> !passed[k] {
      assert items[k] != items[0];
    }
    forall i, j | 0 <= i < j < |rest| ensures Rank(items, rest[i]) < Rank(items, rest[j]) {
      assert rest[i] == errs[i + 1] && rest[j] == errs[j + 1];
    }
  }

  /** A list that reports the whole chain, minus check 0, and does not hold
      check 0's item reports the rest of the chain. */
  lemma ReportsTail(errs: seq<ErrorItem>, passed: seq<bool>, items: seq<ErrorItem>)
    requires |passed| == |items| > 0 && Distinct(items)
    requires items[0] !in errs
    requires |errs| == FailCount(passed[1..])
    requires forall e :: e in errs ==> e in items
    requires forall k :: 0 < k < |items| ==> (items[k] in errs <==> !passed[k])
    requires forall i, j :: 0 <= i < j < |errs| ==> Rank(items, errs[i]) < Rank(items, errs[j])
    ensures ReportsExactly(errs, passed[1..], items[1..])
  {
    var tail := items[1..];
    forall e | e in errs ensures e in tail {
      var j :| 0 <= j < |items| && items[j] == e;
      assert j > 0;
      assert tail[j - 1] == e;
    }
    forall k | 0 <= k < |tail| ensures tail[k] in errs <==> !passed[1..][k] {
      assert tail[k] == items[k + 1];
    }
    forall i, j | 0 <= i < j < |errs| ensures Rank(tail, errs[i]) < Rank(tail, errs[j]) {
      assert errs[i] != items[0] && errs[j] != items[0];
    }
  }
}

=== FILE: wrappers.dfy ===
/** Optional values: a JavaScript `undefined`/`null` on one side, a present value on the other. */
module Wrappers {

  datatype Option<+T> = None | Some(value: T) {

    /** The value, or `default` when absent */
    function GetOr(default: T): T {
      match this
      case Some(v) => v
      case None => default
    }
  }
}
